=== FILE: README.md ===
# NestJS integration for Better Auth — a Dafny model

This project models the authorization core of a NestJS integration for the
Better Auth library (Fastify adapter):

- the three `AuthGuard` variants:
  - the role-checking guard of `src/auth.guard.ts`;
  - the `APIError` guard of `src/auth-guard.ts`;
  - the symbol-keyed guard of `src/guards/auth-guard.ts`;
- `getRequestFromContext`, and the `Session` and `CurrentUserSession` parameter decorators;
- the metadata keys, the decorators that write them, and what the guards then read from them;
- the three module classes:
  - base-path normalisation and the catch-all route;
  - the proxy route (header forwarding, request rebuilding, reply mapping);
  - the trusted-origins CORS decision;
  - hook chaining at start-up;
  - `forRoot` and `forRootAsync`.

Every guard is a pure function of three inputs:
- the context kind (`http`, `rpc`, `ws`, `graphql`);
- the route's metadata (public flag, optional flag, required roles);
- the outcome of the session lookup.

It returns a verdict (allow, answer false, or throw a given error) and the
ordered trace of what it did: metadata reads, the lookup, session and user
writes, socket disconnects. The guards are compared with `Policy.Decide`.
This is an independent statement of the authorization policy, with role
matching stated on sets.

Hook chaining is modelled as a chain of wrapper values. Running a hook for a
request path yields the sequence of calls it makes. That sequence is proved
equal to the hooks that ran before, followed by a filter-based reference list
of the decorated methods that fire.

The proxy route's header loop is a method, proved equal to a recursive
specification. The base-path code is the same in all three module files, and
so is the proxy code; each is modelled once (`BasePath`, `Proxy`).

Only `forRoot` of the module with the exception filter turns the instance's
hooks into an object; `forRootAsync` does not. For an instance configured
without hooks, decorated hook methods are therefore wired under `forRoot` and
silently never run under `forRootAsync` (`FilteredAuthModule.OnlyForRootPreparesHooks`).

## Model

| member | source | states |
|---|---|---|
| Context.RequestFromContext | src/utils.ts:13-23 | 'ws' selects the socket client, 'graphql' the GraphQL context's request, every other kind the HTTP request, each in both directions |
| Context.HttpOrGraphQLRequest | src/auth-guard.ts:68-76 | the guards' own selection never yields a socket |
| Context.SelectionsDifferOnlyOnSockets | src/utils.ts:13-23 | the shared helper and the guards' inline selection agree on every kind except 'ws' |
| Metadata.SetMetadata | src/decorators.ts:13-22 | a decorator sets its one key and keeps every other entry of the target's metadata |
| Metadata.Public | src/decorators.ts:13-14 | after `Public()` the 'PUBLIC' flag reads true and every other entry is kept |
| Metadata.Optional | src/decorators.ts:21-22 | after `Optional()` the 'OPTIONAL' flag reads true and every other entry is kept |
| Metadata.PublicAuth | src/decorators/public-auth.decorator.ts:7 | after the symbol-keyed `Public()` IS_PUBLIC_AUTH reads true and every other entry is kept |
| Metadata.OptionalAuth | src/decorators/optional-auth.decorator.ts:7 | after the symbol-keyed `Optional()` IS_OPTIONAL_AUTH reads true and every other entry is kept |
| Metadata.BeforeHook | src/decorators.ts:58-59 | `BeforeHook(path)` records the path, even an empty one, under the before-hook key and keeps every other entry |
| Metadata.AfterHook | src/decorators.ts:65-66 | `AfterHook(path)` records the path, even an empty one, under the after-hook key and keeps every other entry |
| Metadata.Hook | src/decorators.ts:72 | `Hook()` makes the provider marker read true and keeps every other entry |
| Metadata.StringDecoratorsInvisibleToSymbolKeys | src/decorators.ts:13-22 | `Public()`/`Optional()` of the string-keyed module set 'PUBLIC'/'OPTIONAL' and leave the symbol keys as they were |
| Metadata.SymbolDecoratorsInvisibleToStringKeys | src/decorators/public-auth.decorator.ts:7 | the symbol-keyed `Public()`/`Optional()` set IS_PUBLIC_AUTH/IS_OPTIONAL_AUTH and leave 'PUBLIC'/'OPTIONAL' as they were |
| Metadata.HookDecoratorsRecordPath | src/decorators.ts:58-72 | `BeforeHook`/`AfterHook` store their path under their own key only; `Hook()` sets the provider marker |
| GuardTypes.UserOf | src/auth.guard.ts:50 | the user written is null exactly when the session is null |
| RoleMatch.Includes | src/auth.guard.ts:84 | `includes` is true exactly when the element is in the list |
| RoleMatch.SomeIncluded | src/auth.guard.ts:81 | `some(... includes ...)` is true exactly when the two lists share an element |
| RoleMatch.HasRole | src/auth.guard.ts:78-86 | an array role or a string role passes exactly when one of its names is required; any other role never passes |
| RoleGuard.CanActivate | src/auth.guard.ts:40-96 | lookup first, on the selected object; a failed lookup propagates; session and user are attached before 'PUBLIC' is read; public and optional-without-session allow; no session is a 401; roles are checked even on optional routes and fail with a 403; never answers false |
| RoleGuard.FollowsPolicy | src/auth.guard.ts:52-95 | after a successful lookup the verdict is exactly the policy's decision |
| RoleGuard.VerdictIndependentOfContext | src/auth.guard.ts:41-50 | the verdict does not depend on the context kind |
| ApiErrorGuard.CanActivate | src/auth-guard.ts:32-103 | 'PUBLIC' is read first and a public route returns before any lookup; a WebSocket client is disconnected (and false returned) exactly when its lookup fails, and is otherwise allowed with the session attached; off WebSockets a failed lookup propagates with nothing attached; HTTP/GraphQL attach session and user, then apply the optional flag and the `APIError` 401; a present session always passes; 'ROLES' is never read |
| ApiErrorGuard.FollowsPolicyWithoutRoles | src/auth-guard.ts:78-102 | off WebSockets the verdict is the policy's decision with the role stage removed |
| ApiErrorGuard.WebSocketIgnoresOptional | src/auth-guard.ts:53-66 | the WebSocket branch never consults the optional flag |
| SymbolKeyGuard.CanActivate | src/guards/auth-guard.ts:29-90 | the same steps as the `APIError` guard, read under the symbol keys, with a 401 that carries only its code; a failed lookup off WebSockets propagates with nothing attached |
| SymbolKeyGuard.RenameEffects | src/guards/auth-guard.ts:30-33 | a read of 'PUBLIC' becomes a read of IS_PUBLIC_AUTH, a read of 'OPTIONAL' a read of IS_OPTIONAL_AUTH, and every other step, at the same position, is kept |
| SymbolKeyGuard.MirrorsApiErrorGuard | src/guards/auth-guard.ts:29-90 | the symbol-keyed guard's trace and verdict are the `APIError` guard's, with keys and 401 renamed |
| GuardComparison.SameAdmissionWithoutRoles | src/auth.guard.ts:40-96 | with no roles required and off WebSockets, the role-checking and `APIError` guards admit the same requests and refuse for the same reasons, unless a public route's lookup fails |
| GuardComparison.PublicRoutesDiffer | src/auth-guard.ts:37-42 | on a public route the role-checking guard still looks up the session, so a failed lookup blocks it; the `APIError` guard only reads the flag and allows |
| DecoratedRoutes.StringRouteMeta | src/auth.guard.ts:52-85 | the string-keyed guards see a route as public or optional exactly when 'PUBLIC' or 'OPTIONAL' reads true; a list under 'ROLES' is the required roles; a non-empty string there requires roles too, compared by substring (its required list is exactly its substrings); an empty string or a flag requires none |
| DecoratedRoutes.Substrings | src/auth.guard.ts:84 | the list holds exactly the strings `text.includes(t)` accepts: those that occur in `text` at some position |
| DecoratedRoutes.TextRolesMatchBySubstring | src/auth.guard.ts:77-93 | with a non-empty string under 'ROLES', a signed-in user on a non-public route passes exactly when one of their role names occurs in that string |
| DecoratedRoutes.TextRolesAdmitSubstring | src/auth.guard.ts:83-84 | with 'admin' under 'ROLES', the string role 'adm' passes |
| DecoratedRoutes.TextRolesRefuseOthers | src/auth.guard.ts:80-93 | with 'admin' under 'ROLES', the role list ['user'] is refused with the 403 |
| DecoratedRoutes.SymbolRouteMeta | src/guards/auth-guard.ts:30-78 | the symbol-keyed guard sees a route as public or optional exactly when IS_PUBLIC_AUTH or IS_OPTIONAL_AUTH reads true, and requires no roles |
| DecoratedRoutes.PublicDecoratorAdmits | src/auth-guard.ts:37-42 | a route marked `Public()` of the guard's own family is allowed by the `APIError` and symbol-keyed guards without a lookup, and by the role-checking guard exactly when its lookup does not reject |
| DecoratedRoutes.OptionalDecoratorAdmitsAnonymous | src/auth.guard.ts:59-66 | a route marked `Optional()` of the guard's own family admits a request without a session, outside WebSockets, in all three guards |
| DecoratedRoutes.DecoratorsStayInTheirFamily | src/decorators/public-auth.decorator.ts:7 | the string-keyed decorators change no outcome of the symbol-keyed guard, and the symbol-keyed ones no outcome of the string-keyed guards |
| ParamDecorators.SelectRequest | src/decorators/current-user-session.decorator.ts:18-28 | 'graphql' reads the GraphQL context's request, which may be missing; every other kind reads the HTTP request |
| ParamDecorators.SpreadWithHeaders | src/decorators/current-user-session.decorator.ts:31-37 | the key-less object always exists; it holds the session and user when attached and the headers when a request exists |
| ParamDecorators.CurrentUserSession | src/decorators/current-user-session.decorator.ts:14-48 | a switch on the key: key-less gives the merged object; 'session'/'user' give the attached property and throw when the request is missing; 'headers' wraps the request headers; an unknown key gives `undefined` |
| ParamDecorators.SessionParam | src/decorators.ts:28-52 | key-less gives the merged object; 'session'/'user' read that property of the attached session, `undefined` exactly when no session is attached, and throw when the request is missing; 'headers' and any unknown key give `undefined` |
| ParamDecorators.KeyedFormsReadTheMergedObject | src/decorators/current-user-session.decorator.ts:30-41 | 'session' and 'user' return the same property the key-less object carries, in both decorators |
| ParamDecorators.NoSessionLeavesOnlyHeaders | src/decorators/current-user-session.decorator.ts:33-45 | without a session the key-less object equals the 'headers' result |
| ParamDecorators.DecoratorsDifferOnHeaders | src/decorators.ts:45-50 | the two decorators return the same result exactly when the key is not 'headers' with a request present, and not an unknown key with the request missing (`Session` throws there, `CurrentUserSession` gives `undefined`) |
| BasePath.WithLeadingSlash | src/auth-module.ts:62-64 | the result starts with '/', and equals the input when it already did |
| BasePath.WithoutTrailingSlash | src/auth-module.ts:65-67 | one trailing '/' is removed, not all of them |
| BasePath.Normalize | src/auth.module.ts:104-114 | the default is '/api/auth'; the result is empty or starts with '/'; it is empty exactly for '' and '/'; it ends in '/' exactly when the input ends in '//' |
| BasePath.EmptyOnlyForSlashOrNothing | src/auth-module.ts:59-67 | the normalized prefix is empty or starts with '/', and it is empty exactly when the configured one is '' or '/' |
| BasePath.TrailingSlashSurvives | src/better-auth.module.ts:62-70 | the normalized prefix ends in '/' exactly when the configured one ended in '//' |
| BasePath.CatchAllRoute | src/auth.module.ts:116-117 | the route is the prefix followed by a slash and the wildcard |
| BasePath.NormalizedPrefixesAreFixed | src/auth-module.ts:59-67 | the empty prefix and a prefix starting but not ending with '/' are left unchanged |
| BasePath.NormalizeIdempotentUnlessDoubleSlash | src/auth-module.ts:59-67 | normalizing twice equals normalizing once exactly when the input does not end in '//' |
| BasePath.NormalizeExamples | src/better-auth.module.ts:62-70 | '' and '/' give the empty prefix, '//' gives '/', 'api/auth/' gives '/api/auth', and the default route is '/api/auth' followed by a slash and the wildcard |
| Proxy.Join | src/auth.module.ts:128 | an array header's string form: an empty array gives '', a one-element array gives its element |
| Proxy.JoinAppend | src/auth.module.ts:128 | appending an element appends ',' and that element: the items are separated by ',' in order |
| Proxy.JoinExamples | src/auth-module.ts:79-81 | `['a','b']` becomes 'a,b' and `['en','fr','de']` becomes 'en,fr,de' |
| Proxy.HeaderString | src/auth.module.ts:128 | a string header is sent as is; an empty array, being truthy, is sent as ''; a one-element array as its element |
| Proxy.Forwarded | src/auth.module.ts:125-130 | at most one pair per incoming entry: one for each when all are truthy, none when none is |
| Proxy.ForwardHeaders | src/auth.module.ts:125-130 | the header loop produces exactly the recursive specification `Forwarded` |
| Proxy.ForwardedMembers | src/auth-module.ts:78-81 | a pair is forwarded exactly when some incoming entry has that name and a truthy value with that string form |
| Proxy.BuildRequest | src/auth.module.ts:132-136 | method, URL and forwarded headers are carried over; the body is sent exactly when it is truthy, as its serialization |
| Proxy.MapReply | src/better-auth.module.ts:96-117 | a response's status and headers are mirrored, its body text sent, or status and statusText when there is no body; any failure is a 500 with the fixed AUTH_FAILURE body; headers copied before a body-read failure stay on the reply |
| Proxy.FailuresIndistinguishable | src/better-auth.module.ts:109-117 | every failure, wherever it happened, gives the same status and body |
| Proxy.RepliesDetermineResponses | src/better-auth.module.ts:98-108 | two responses give the same reply exactly when status, headers and body agree, and the status text too when there is no body |
| Hooks.Fires | src/auth.module.ts:182 | a non-empty path fires exactly on an equal request path under both rules; an empty path fires on every request under EmptyOrEqual and only on an empty request path under Equal |
| Hooks.Run | src/auth.module.ts:176-189 | a configured hook makes its own call; in a chain it runs first and every later call is a decorated method; the outermost wrapper's method, when it fires, runs last |
| Hooks.Registration | src/auth.module.ts:170-173 | under the EmptyOrEqual rule any path under the key is taken; under the Equal rule only a non-empty one |
| Hooks.SetupHook | src/better-auth.module.ts:128-144 | a registered path wraps the slot's previous hook; an unregistered one leaves the slots unchanged; the other slot is never touched |
| Hooks.SetupHooks | src/auth.module.ts:163-191 | the before and after entries of one method are each wrapped as if the method carried only that entry; a method with neither leaves the hooks as they were |
| Hooks.InstallAll | src/auth.module.ts:68-79 | methods registered for neither hook type leave the hooks as they were |
| Hooks.SetupHooksRuns | src/auth-module.ts:114-132 | installing one method appends its call, if it fires, after everything the slot already did |
| Hooks.InstallAllRuns | src/auth-module.ts:47-55 | after installing a list of methods, a slot runs its earlier hooks and then the firing methods in installation order |
| Hooks.FiredMembers | src/auth.module.ts:175-189 | a method runs exactly when it is registered for that hook type and its path fires for the request path |
| Hooks.RulesDifferOnlyOnEmptyPaths | src/auth.module.ts:182-187 | an empty path runs on every request under EmptyOrEqual and never under Equal; any other path fires for the same requests under both, called on the provider instance under EmptyOrEqual and unbound under Equal |
| Hooks.EqualWiringCallsUnbound | src/better-auth.module.ts:141 | every decorated method wired under Equal is called without a receiver (`providerMethod(context)`) |
| Hooks.Executed | src/auth-module.ts:122-130 | the calls that happen when the calls at some positions throw: a prefix of the attempted calls, up to and including the first that throws, and all of them when none throws |
| Hooks.StopAt | src/auth-module.ts:122-130 | a run stops just after the first throwing position, or at the end when none throws |
| Hooks.ThrowStopsChain | src/auth.module.ts:177-188 | once a call throws, nothing after it in the chain runs |
| Hooks.StopAtIgnoresTail | src/auth.module.ts:177-188 | a throw before a position stops the run at the same place whatever follows that position |
| Hooks.ThrowingHookSkipsDecoratedMethods | src/auth-module.ts:122-125 | when an earlier hook throws, no decorated method wired after it runs: the slot does exactly what it did before wiring |
| Hooks.StaysWrapped | src/auth.module.ts:175-176 | a wrapped slot stays wrapped whatever is installed after |
| Hooks.WiringDiscardsResults | src/auth.module.ts:175-189 | once any method is registered for a hook type, that slot is a wrapper that does not hand a result back to the library |
| Hooks.HookProviders | src/auth-module.ts:41-45 | exactly the discovered providers whose class carries the `Hook()` marker are kept |
| Hooks.WireHooks | src/better-auth.module.ts:41-59 | without a hooks object nothing changes; with one the result is still a hooks object |
| Hooks.WireHooksRuns | src/better-auth.module.ts:46-58 | after wiring, each slot runs what it ran before and then the firing methods of marked providers in discovery order |
| Hooks.UnmarkedProvidersContributeNothing | src/better-auth.module.ts:48 | a provider without the marker never adds a method to the wiring |
| Hooks.EnsureHooksObject | src/auth-module.ts:141-143 | the hooks become an object, keeping an existing object's entries |
| GuardedAuthModule.Configure | src/auth.module.ts:82-117 | CORS is enabled, with the origins, the four methods and credentials, exactly for an origin array when not disabled; function origins throw exactly when not disabled; otherwise the route is registered under the normalized prefix |
| GuardedAuthModule.DisabledCorsOnlyRegistersRoute | src/auth.module.ts:86-102 | with CORS disabled, `configure` never throws and registers only the route, whatever the trusted origins |
| GuardedAuthModule.RouteIndependentOfCors | src/auth.module.ts:104-117 | any two configurations that do not throw register the same route for the same base path |
| GuardedAuthModule.OnModuleInit | src/auth.module.ts:49-80 | start-up fails exactly when a marked provider exists and the hooks are unset; `null` passes the check and wires nothing; an object is wired under the EmptyOrEqual rule |
| GuardedAuthModule.NormalizeForRoot | src/auth.module.ts:216-222 | an options object is used as is; a bare instance is spread with the flags that follow it, which default to false |
| GuardedAuthModule.CallFormsAgree | src/auth.module.ts:211-224 | `forRoot(auth, flags)` and `forRoot({ auth, ...flags })` configure the same module |
| GuardedAuthModule.Builder | src/auth.module.ts:224 | provider i is the builder's token i, and none of them is the global guard |
| GuardedAuthModule.WithGlobalGuard | src/auth.module.ts:226-238 | the builder's providers come first; the global guard is appended exactly when not disabled |
| GuardedAuthModule.ForRoot | src/auth.module.ts:211-240 | the global guard is registered exactly when the normalized options do not disable it |
| GuardedAuthModule.ForRootAsync | src/auth.module.ts:193-209 | the global guard is registered exactly when not disabled |
| GuardedAuthModule.ForRootIsForRootAsyncOfNormalizedFlag | src/auth.module.ts:193-240 | `forRoot` adds exactly what `forRootAsync` adds for the normalized `disableGlobalAuthGuard` |
| FilteredAuthModule.WithFilter | src/auth-module.ts:157-162 | the exception filter is appended exactly when not disabled |
| FilteredAuthModule.ForRoot | src/auth-module.ts:134-180 | a global module listing the instance, the options (`{}` when none were given) and the service; the filter appears exactly when not disabled; the hooks become an object and an existing object is kept |
| FilteredAuthModule.ForRootAsync | src/auth-module.ts:182-222 | the factory injects the caller's tokens followed by the auth service; imports default to none; the options are passed as given; the filter appears exactly when not disabled |
| FilteredAuthModule.CallFormsAgree | src/auth-module.ts:157-206 | both forms register the filter under the same condition and list the same providers after the options; the recorded options differ exactly when none were given |
| FilteredAuthModule.OnModuleInit | src/auth-module.ts:37-56 | without a hooks object nothing is wired; with one the result is still a hooks object (methods wired under the Equal rule) |
| FilteredAuthModule.ForRootMakesHooksWirable | src/auth-module.ts:134-143 | after `forRoot`, start-up wiring reaches every marked method whose path equals the request path; an instance with no hooks ends up running exactly those methods |
| FilteredAuthModule.OnlyForRootPreparesHooks | src/auth-module.ts:134-143 | for an instance without hooks, wiring after `forRootAsync` leaves the hooks unset and runs nothing, while after `forRoot` every marked method whose path matches runs |

`FilteredAuthModule.OnModuleInit` also models `onModuleInit` of
src/better-auth.module.ts:41-59. That code is identical rule for rule.

## Left out

- The Fetch `URL`, `Headers`, `Request` and `Response` objects are not modelled. The absolute URL is an input; header names are kept as given (no lower-casing or merging); a failure while building the URL or request is the `Threw` outcome.
- `JSON.stringify` is not modelled. A truthy body is given together with its serialized text.
- The library's `getSession` and `handler` are not modelled. Their results are inputs: the session lookup, and the handler outcome.
- Header-name normalisation by `fromNodeHeaders` is not modelled. The lookup is recorded with the object it reads.
- `Reflector.getAllAndOverride` is not modelled. The guards take the route metadata directly, as flags and an optional role list; `DecoratedRoutes` reads it from one store, standing for the handler's metadata already merged over the class's.
- Logging (`logger.fatal`, `logger.log`) is not modelled.
- The timing of `await` and any interleaving of requests are not modelled. Each hook call and lookup is one step of the trace. A throw inside the chain is modelled (`Hooks.Executed`): it stops the chain at that call.
- The value a hook returns to the library is modelled only as forwarded or not (`Hooks.ForwardsResult`): a configured hook's result is forwarded, a wrapper's is not. The value itself is not modelled.
- What an unbound decorated method does when it reads `this` is not modelled. The call is recorded with `Hooks.NoReceiver`; in the source such a method, being class code and so strict, gets `this` undefined and throws a `TypeError` as soon as it reads `this`.
- The role-checking guard's header source (`headers || handshake.headers || []`) is not modelled. The lookup is recorded on the object `getRequestFromContext` selects.
- A GraphQL context without `req` is not modelled in the guards; the model assumes the request exists. src/auth.guard.ts:45 and src/guards/auth-guard.ts:68 dereference `undefined` before the lookup. src/auth-guard.ts:79 reads `request?.headers`, so the lookup call is reached; its own first dereference is at src/auth-guard.ts:82. In the parameter decorators the missing request is modelled.
- A property name other than 'session', 'user' and 'headers' is modelled as a key the session object does not have. A name the object inherits (such as 'constructor') would read a prototype member in `Session`; this is not modelled.
- NestJS dependency injection, `DiscoveryService`, `MetadataScanner` and the `ConfigurableModuleBuilder` are not modelled. The builder's providers are passed in as tokens, and a discovered provider is given as its class metadata and its methods.
- The `exports` lists of the dynamic modules are not modelled, nor is the `useFactory` callback of `forRootAsync`.
- The exception filters, the service classes and the body-parser flag are not part of this model.
- src/symbols.ts and src/constants/hooks.const.ts are not part of this model. Both declare the hook keys; the model takes each pair to be the same symbol, so one key serves every module and both hook decorators. The symbols are taken to be distinct from each other and from the string keys.
- The providers `forRoot`/`forRootAsync` of the string-keyed guarded module return are checked only for the presence of the global guard and the builder's prefix, not for their full shape. This is what the source adds to the builder's list.
- GuardedAuthModule.Configure: the CORS options are checked as data; the Fastify call that applies them is not modelled.
- FilteredAuthModule.OnModuleInit: it states only the hooks-object shape. What the wired slots run is stated by `FilteredAuthModule.ForRootMakesHooksWirable` and `Hooks.WireHooksRuns`.

=== FILE: api_error_guard.dfy ===
/**
 * The `APIError` guard (string keys, WebSocket branch, no role check): it
 * reads 'PUBLIC' before anything else and returns at once on a public route;
 * a WebSocket client is only attached to, or disconnected when the lookup
 * fails; an HTTP or GraphQL request is attached to and then held to the
 * optional flag.
 */
module ApiErrorGuard {
  import opened Common
  import opened AuthTypes
  import opened Context
  import opened Metadata
  import opened GuardTypes
  import opened Policy

  /** `new APIError(401, { code: 'UNAUTHORIZED', message: 'Unauthorized' })`. */
  const Unauthorized: GuardError := ApiError(401, "UNAUTHORIZED", Some("Unauthorized"))

  function CanActivate(kind: ContextKind, meta: RouteMeta, lookup: Lookup): (o: Outcome)
    ensures |o.effects| >= 1 && o.effects[0] == ReadMeta(PublicKey)
    // a public route returns before any lookup: nothing is attached
    ensures meta.isPublic ==> o == Outcome(Allow, [ReadMeta(PublicKey)])
    // WebSocket: a failed lookup disconnects and answers false
    ensures !meta.isPublic && kind.Ws? && lookup.LookupFailed? ==>
              o == Outcome(Deny, [ReadMeta(PublicKey), LookupSession(SocketClient), Disconnect])
    // WebSocket: a successful lookup attaches the session, even null, and allows
    ensures !meta.isPublic && kind.Ws? && lookup.LookupOk? ==>
              o == Outcome(Allow, [ReadMeta(PublicKey), LookupSession(SocketClient), SetSession(SocketClient, lookup.session)])
    // a socket is never disconnected outside the WebSocket branch
    ensures Disconnect in o.effects <==> o.verdict == Deny
    ensures o.verdict == Deny ==> kind.Ws? && lookup.LookupFailed?
    // HTTP and GraphQL: lookup on the selected request, then session and user attached
    ensures !meta.isPublic && !kind.Ws? ==>
              && |o.effects| >= 2
              && o.effects[1] == LookupSession(HttpOrGraphQLRequest(kind))
    ensures !meta.isPublic && !kind.Ws? && lookup.LookupFailed? ==>
              o == Outcome(Raise(LookupRejected), [ReadMeta(PublicKey), LookupSession(HttpOrGraphQLRequest(kind))])
    ensures !meta.isPublic && !kind.Ws? && lookup.LookupOk? ==>
              && |o.effects| == 5
              && o.effects[2] == SetSession(HttpOrGraphQLRequest(kind), lookup.session)
              && o.effects[3] == SetUser(HttpOrGraphQLRequest(kind), UserOf(lookup.session))
              && o.effects[4] == ReadMeta(OptionalKey)
    ensures !meta.isPublic && !kind.Ws? && lookup.LookupOk? && meta.isOptional && lookup.session.None? ==>
              o.verdict == Allow
    ensures !meta.isPublic && !kind.Ws? && lookup.LookupOk? && !meta.isOptional && lookup.session.None? ==>
              o.verdict == Raise(Unauthorized)
    // a present session is always allowed: there is no role check
    ensures lookup.LookupOk? && lookup.session.Some? ==> o.verdict == Allow
    ensures ReadMeta(RolesKey) !in o.effects
  {
    var read := [ReadMeta(PublicKey)];
    if meta.isPublic then Outcome(Allow, read)
    else if kind.Ws? then
      match lookup
      case LookupFailed => Outcome(Deny, read + [LookupSession(SocketClient), Disconnect])
      case LookupOk(session) => Outcome(Allow, read + [LookupSession(SocketClient), SetSession(SocketClient, session)])
    else
      var target := HttpOrGraphQLRequest(kind);
      match lookup
      case LookupFailed => Outcome(Raise(LookupRejected), read + [LookupSession(target)])
      case LookupOk(session) =>
        var attached := read + [LookupSession(target), SetSession(target, session), SetUser(target, UserOf(session)), ReadMeta(OptionalKey)];
        if meta.isOptional && session.None? then Outcome(Allow, attached)
        else if session.None? then Outcome(Raise(Unauthorized), attached)
        else Outcome(Allow, attached)
  }

  /**
   * How this guard enforces a decision. It never checks roles, so it has no
   * 403 to throw: its domain is the two decisions it can reach.
   */
  function Enforce(d: Decision): Verdict
    requires d != RejectForbidden
  {
    match d
    case Permit => Allow
    case RejectUnauthenticated => Raise(Unauthorized)
  }

  /**
   * Off WebSockets, a successful lookup leads to the policy's decision with
   * the role stage removed: this guard never refuses a session for its roles.
   */
  lemma FollowsPolicyWithoutRoles(kind: ContextKind, meta: RouteMeta, session: Option<UserSession>)
    requires !kind.Ws?
    ensures DecideIgnoringRoles(meta, session) != RejectForbidden
    ensures CanActivate(kind, meta, LookupOk(session)).verdict == Enforce(DecideIgnoringRoles(meta, session))
  {
  }

  /** On a WebSocket the optional flag is never consulted. */
  lemma WebSocketIgnoresOptional(meta: RouteMeta, lookup: Lookup)
    ensures CanActivate(Ws, meta, lookup) == CanActivate(Ws, meta.(isOptional := !meta.isOptional), lookup)
  {
  }
}

=== FILE: auth_types.dfy ===
/**
 * The values the guards, decorators and proxy route pass around: the session
 * returned by the authentication library, the request headers, and the kind
 * of execution context a request arrives in.
 */
module AuthTypes {

  /**
   * The `role?: string | string[]` field of a session user. `UnsetRole` stands
   * for `undefined` and for any other value that is neither a string nor an
   * array: both fail every non-empty role requirement.
   */
  datatype Role = UnsetRole | SingleRole(name: string) | RoleArray(names: seq<string>)

  datatype User = User(id: string, role: Role)

  /** The `session` half of a session lookup result (identity of the login). */
  datatype SessionRecord = SessionRecord(id: string, token: string)

  /** A successful lookup result: the `{ session, user }` object. */
  datatype UserSession = UserSession(session: SessionRecord, user: User)

  /** One value of a Fastify request header: string, string array or `undefined`. */
  datatype HeaderValue = HeaderText(text: string) | HeaderArray(items: seq<string>) | HeaderUndefined

  /** `request.headers`, as the ordered entries `Object.entries` yields. */
  type Headers = seq<(string, HeaderValue)>

  /** A `betterAuth(...)` instance, by identity. */
  type AuthInstance = string

  /** The value of `context.getType()`: Nest's 'http' | 'rpc' | 'ws' plus 'graphql'. */
  datatype ContextKind = Http | Rpc | Ws | GraphQL
}

=== FILE: base_path.dfy ===
/**
 * The auth route prefix: the configured `basePath` (default '/api/auth')
 * gets a leading '/' when it lacks one and loses one trailing '/', and the
 * catch-all route is that prefix followed by a slash and the wildcard `*`.
 */
module BasePath {
  import opened Common

  const DefaultBasePath: string := "/api/auth"

  /** `if (!basePath.startsWith('/')) basePath = '/' + basePath`. */
  function WithLeadingSlash(s: string): (r: string)
    ensures StartsWith(r, "/")
    ensures StartsWith(s, "/") ==> r == s
    ensures !StartsWith(s, "/") ==> r == "/" + s
  {
    if StartsWith(s, "/") then s else "/" + s
  }

  /** `if (basePath.endsWith('/')) basePath = basePath.slice(0, -1)`: one slash, not all. */
  function WithoutTrailingSlash(s: string): (r: string)
    ensures EndsWith(s, "/") ==> r + "/" == s
    ensures !EndsWith(s, "/") ==> r == s
  {
    if EndsWith(s, "/") then s[..|s| - 1] else s
  }

  /** The prefix the module registers its route under. */
  function Normalize(configured: Option<string>): (r: string)
    ensures configured.None? ==> r == DefaultBasePath
    ensures r == "" || StartsWith(r, "/")
    // only the empty path and a lone slash collapse to the empty prefix
    ensures configured.Some? ==> (r == "" <==> configured.value == "" || configured.value == "/")
    // a trailing slash survives exactly when the input ends in two of them
    ensures configured.Some? ==> (EndsWith(r, "/") <==> EndsWith(configured.value, "//"))
  {
    var s := if configured.Some? then configured.value else DefaultBasePath;
    TrailingSlashSurvives(s);
    EmptyOnlyForSlashOrNothing(s);
    WithoutTrailingSlash(WithLeadingSlash(s))
  }

  /** The normalized prefix is empty or starts with '/', and it is empty exactly for '' and '/'. */
  lemma EmptyOnlyForSlashOrNothing(s: string)
    ensures var r := WithoutTrailingSlash(WithLeadingSlash(s));
            (r == "" || StartsWith(r, "/")) && (r == "" <==> s == "" || s == "/")
  {
    var w := WithLeadingSlash(s);
    var r := WithoutTrailingSlash(w);
    LeadingSlash(s);
    LeadingSlash(w);
    TrailingSlash(w);
    assert s == "" || s == "/" ==> w == "/";
    assert EndsWith("/", "/");
    if EndsWith(w, "/") {
      assert r == w[..|w| - 1];
      if |r| > 0 {
        assert r[0] == w[0];
        LeadingSlash(r);
      }
      if |w| == 1 {
        assert w == [w[0]];
        if StartsWith(s, "/") {
          assert s == w;
        } else {
          assert w == "/" + s;
        }
      }
    } else {
      assert r == w;
      LeadingSlash(r);
    }
  }

  /** `StartsWith(s, "/")` read off the first character. */
  lemma LeadingSlash(s: string)
    ensures StartsWith(s, "/") <==> |s| >= 1 && s[0] == '/'
  {
    if |s| >= 1 {
      assert s[..1] == [s[0]];
    }
  }

  /** `EndsWith(s, "/")` read off the last character. */
  lemma TrailingSlash(s: string)
    ensures EndsWith(s, "/") <==> |s| >= 1 && s[|s| - 1] == '/'
  {
    if |s| >= 1 {
      assert s[|s| - 1..] == [s[|s| - 1]];
    }
  }

  /** `EndsWith(s, "//")` read off the last two characters. */
  lemma DoubleTrailingSlash(s: string)
    ensures EndsWith(s, "//") <==> |s| >= 2 && s[|s| - 2] == '/' && s[|s| - 1] == '/'
  {
    if |s| >= 2 {
      assert s[|s| - 2..] == [s[|s| - 2], s[|s| - 1]];
    }
  }

  /** The normalized prefix ends in '/' exactly when the input ended in '//'. */
  lemma {:induction false} TrailingSlashSurvives(s: string)
    ensures EndsWith(WithoutTrailingSlash(WithLeadingSlash(s)), "/") <==> EndsWith(s, "//")
  {
    var w := WithLeadingSlash(s);
    var r := WithoutTrailingSlash(w);
    LeadingSlash(s);
    TrailingSlash(w);
    TrailingSlash(r);
    TrailingSlash(s);
    DoubleTrailingSlash(s);
    if EndsWith(w, "/") {
      assert r == w[..|w| - 1];
      if !StartsWith(s, "/") {
        assert w == "/" + s;
        if |s| >= 2 {
          assert w[|w| - 2] == s[|s| - 2];
          assert w[|w| - 1] == s[|s| - 1];
        }
      }
    } else if |s| >= 1 {
      assert w[|w| - 1] == s[|s| - 1];
    }
  }

  /** The Fastify route pattern: the prefix, a slash and the wildcard `*`. */
  function CatchAllRoute(basePath: string): (route: string)
    ensures StartsWith(route, basePath)
    ensures EndsWith(route, "/*")
    ensures |route| == |basePath| + 2
  {
    basePath + "/*"
  }

  /**
   * A prefix that already starts with '/' and does not end with '/' is left
   * as it is, and so is the empty prefix: these are the fixed points.
   */
  lemma NormalizedPrefixesAreFixed(p: string)
    requires p == "" || (StartsWith(p, "/") && !EndsWith(p, "/"))
    ensures Normalize(Some(p)) == p
  {
  }

  /**
   * Normalizing twice gives the same prefix as normalizing once, unless the
   * input ended in two slashes: then the second pass strips another one.
   */
  lemma NormalizeIdempotentUnlessDoubleSlash(s: string)
    ensures Normalize(Some(Normalize(Some(s)))) == Normalize(Some(s)) <==> !EndsWith(s, "//")
  {
    var r := Normalize(Some(s));
    if EndsWith(s, "//") {
      assert EndsWith(r, "/");
      assert |Normalize(Some(r))| < |r|;
    } else {
      assert !EndsWith(r, "/");
      NormalizedPrefixesAreFixed(r);
    }
  }

  /** The edge cases of the normalization and the default route. */
  lemma NormalizeExamples()
    ensures Normalize(None) == "/api/auth"
    ensures CatchAllRoute(Normalize(None)) == "/api/auth/*"
    ensures Normalize(Some("")) == ""
    ensures Normalize(Some("/")) == ""
    ensures Normalize(Some("//")) == "/"
    ensures Normalize(Some("api/auth/")) == "/api/auth"
  {
    assert StartsWith("//", "/");
    assert WithLeadingSlash("//") == "//";
    assert EndsWith("//", "/");
    var p := "api/auth/";
    assert p[..1] != "/" by {
      assert p[..1][0] == 'a';
    }
    assert WithLeadingSlash(p) == "/api/auth/";
    assert EndsWith("/api/auth/", "/");
  }
}

=== FILE: common.dfy ===
/** Small failure-compatible wrappers shared by every module of the model. */
module Common {

  /** A value that may be missing: JavaScript's `undefined`/`null` become `None`. */
  datatype Option<+T> = None | Some(value: T)

  /** The outcome of a step that may throw: `Err` carries the thrown message. */
  datatype Result<+T> = Ok(value: T) | Err(message: string)

  /** JavaScript `String.prototype.startsWith(prefix)`. */
  predicate StartsWith(s: string, prefix: string)
  {
    |prefix| <= |s| && s[..|prefix|] == prefix
  }

  /** JavaScript `String.prototype.endsWith(suffix)`. */
  predicate EndsWith(s: string, suffix: string)
  {
    |suffix| <= |s| && s[|s| - |suffix|..] == suffix
  }
}

=== FILE: context.dfy ===
/**
 * Execution-context dispatch: which underlying object a guard or parameter
 * decorator reads headers from and writes the session onto.
 */
module Context {
  import opened AuthTypes

  /**
   * The accessor a guard or decorator reads its object through:
   * `switchToHttp().getRequest()`, the GraphQL context's `req`, or
   * `switchToWs().getClient()`. These name the accessor, not the object:
   * the HTTP and WebSocket accessors both return the handler's first
   * argument, so on a 'ws' context the HTTP accessor also yields the socket.
   */
  datatype Target = HttpRequest | GraphQLRequest | SocketClient

  /**
   * `getRequestFromContext`: 'ws' selects the socket client, 'graphql' the
   * GraphQL context's `req`, and every other kind (including 'rpc') the HTTP
   * request.
   */
  function RequestFromContext(kind: ContextKind): (t: Target)
    ensures t == SocketClient <==> kind == Ws
    ensures t == GraphQLRequest <==> kind == GraphQL
    ensures t == HttpRequest <==> kind.Http? || kind.Rpc?
  {
    if kind == Ws then SocketClient
    else if kind == GraphQL then GraphQLRequest
    else HttpRequest
  }

  /**
   * The two-way selection the `Session`/`CurrentUserSession` decorators and
   * the non-WebSocket path of the symbol- and APIError-guards make: the
   * GraphQL `req` for 'graphql', the HTTP accessor for everything else. It
   * never goes through the WebSocket accessor, even for a 'ws' context.
   */
  function HttpOrGraphQLRequest(kind: ContextKind): (t: Target)
    ensures t != SocketClient
    ensures t == GraphQLRequest <==> kind == GraphQL
  {
    if kind == GraphQL then GraphQLRequest else HttpRequest
  }

  /**
   * The two selections use different accessors only on a WebSocket
   * context: there `getRequestFromContext` asks for the client, the inline
   * selection for the HTTP request.
   */
  lemma SelectionsDifferOnlyOnSockets(kind: ContextKind)
    ensures RequestFromContext(kind) == HttpOrGraphQLRequest(kind) <==> kind != Ws
  {
  }
}

=== FILE: decorated_routes.dfy ===
/**
 * From decorators to guard decisions: the route metadata each guard family
 * reads out of a handler's metadata store, and what `Public()`/`Optional()`
 * of each family then make the guards do. The two families write different
 * keys, so a decorator only ever reaches the guards of its own family.
 */
module DecoratedRoutes {
  import opened Common
  import opened AuthTypes
  import opened Metadata
  import opened GuardTypes
  import RoleGuard
  import RoleMatch
  import ApiErrorGuard
  import SymbolKeyGuard

  /** `t` occurs in `text` starting at position `i`. */
  predicate OccursAt(t: string, text: string, i: int)
  {
    0 <= i <= |text| - |t| && text[i..i + |t|] == t
  }

  /** `text.includes(t)` on strings: `t` occurs in `text` at some position. */
  predicate IsSubstring(t: string, text: string)
  {
    exists i :: 0 <= i <= |text| && OccursAt(t, text, i)
  }

  /** The prefixes of `text`, the empty one included. */
  function Prefixes(text: string): (r: seq<string>)
    ensures forall t :: t in r <==> |t| <= |text| && text[..|t|] == t
  {
    var r := seq(|text| + 1, k requires 0 <= k <= |text| => text[..k]);
    assert forall t | |t| <= |text| && text[..|t|] == t :: t in r by {
      forall t | |t| <= |text| && text[..|t|] == t ensures t in r {
        assert r[|t|] == t;
      }
    }
    r
  }

  /** A substring of `text` starts at 0 or is a substring of `text` without its first character. */
  lemma SubstringStep(t: string, text: string)
    requires |text| > 0
    ensures IsSubstring(t, text) <==> (|t| <= |text| && text[..|t|] == t) || IsSubstring(t, text[1..])
  {
    if IsSubstring(t, text) {
      var i :| 0 <= i <= |text| && OccursAt(t, text, i);
      if i > 0 {
        assert text[1..][i - 1..i - 1 + |t|] == t;
        assert OccursAt(t, text[1..], i - 1);
      }
    }
    if IsSubstring(t, text[1..]) {
      var i :| 0 <= i <= |text[1..]| && OccursAt(t, text[1..], i);
      assert text[1..][i..i + |t|] == text[i + 1..i + 1 + |t|];
      assert OccursAt(t, text, i + 1);
    }
    if |t| <= |text| && text[..|t|] == t {
      assert OccursAt(t, text, 0);
    }
  }

  /**
   * Every substring of `text`: the strings `r` for which `text.includes(r)`
   * holds. A string compared with `includes` behaves as this list would.
   */
  function Substrings(text: string): (r: seq<string>)
    ensures forall t :: t in r <==> IsSubstring(t, text)
    decreases |text|
  {
    if |text| == 0 then
      assert OccursAt("", text, 0);
      [""]
    else
      var rest := Substrings(text[1..]);
      assert forall t :: IsSubstring(t, text) <==> (|t| <= |text| && text[..|t|] == t) || IsSubstring(t, text[1..]) by {
        forall t ensures IsSubstring(t, text) <==> (|t| <= |text| && text[..|t|] == t) || IsSubstring(t, text[1..]) {
          SubstringStep(t, text);
        }
      }
      Prefixes(text) + rest
  }

  /**
   * What the string-keyed guards read: 'PUBLIC' and 'OPTIONAL' as truth
   * values, and 'ROLES' as the required roles. The stored value is declared
   * `string[]`, but it is whatever the route put there:
   * - a list is used as is;
   * - a non-empty string passes `length > 0`, and `includes` on it is a
   *   substring test, so it acts as the list of its substrings;
   * - an empty string or a flag requires no role (`''` is falsy and a
   *   boolean has no `length`).
   */
  function StringRouteMeta(store: Store): (m: RouteMeta)
    ensures m.isPublic <==> ReadFlag(store, PublicKey)
    ensures m.isOptional <==> ReadFlag(store, OptionalKey)
    ensures RolesKey in store && store[RolesKey].RoleNames? ==> m.roles == Some(store[RolesKey].names)
    ensures RolesKey in store && store[RolesKey].PathValue? && store[RolesKey].path != "" ==>
              m.roles.Some? && forall t :: t in m.roles.value <==> IsSubstring(t, store[RolesKey].path)
    ensures RolesRequired(m) <==>
              RolesKey in store
              && ((store[RolesKey].RoleNames? && |store[RolesKey].names| > 0)
                  || (store[RolesKey].PathValue? && store[RolesKey].path != ""))
  {
    var roles :=
      if RolesKey !in store then None
      else match store[RolesKey]
        case RoleNames(names) => Some(names)
        case PathValue(text) => if text != "" then Some(Substrings(text)) else None
        case Flag(_) => None;
    assert roles.Some? && store[RolesKey].PathValue? ==> "" in roles.value by {
      if roles.Some? && store[RolesKey].PathValue? {
        assert store[RolesKey].path[0..0] == "";
      }
    }
    RouteMeta(ReadFlag(store, PublicKey), ReadFlag(store, OptionalKey), roles)
  }

  /**
   * With a non-empty string under 'ROLES', a signed-in user on a non-public
   * route passes exactly when one of their role names occurs in that string.
   */
  lemma TextRolesMatchBySubstring(store: Store, kind: ContextKind, s: UserSession)
    requires RolesKey in store && store[RolesKey].PathValue? && store[RolesKey].path != ""
    requires !ReadFlag(store, PublicKey)
    ensures RoleGuard.CanActivate(kind, StringRouteMeta(store), LookupOk(Some(s))).verdict == Allow <==>
            exists r :: r in RoleMatch.RoleNames(s.user.role) && IsSubstring(r, store[RolesKey].path)
  {
  }

  /** 'ROLES' holding the string "admin": the role "adm" occurs in it and passes. */
  lemma TextRolesAdmitSubstring(kind: ContextKind, id: string)
    ensures RoleGuard.CanActivate(kind, StringRouteMeta(map[RolesKey := PathValue("admin")]),
              LookupOk(Some(UserSession(SessionRecord(id, id), User(id, SingleRole("adm")))))).verdict == Allow
  {
    var store := map[RolesKey := PathValue("admin")];
    var s := UserSession(SessionRecord(id, id), User(id, SingleRole("adm")));
    assert OccursAt("adm", "admin", 0);
    assert "adm" in RoleMatch.RoleNames(s.user.role);
    TextRolesMatchBySubstring(store, kind, s);
  }

  /** 'ROLES' holding the string "admin": the role list ["user"] shares no substring and is refused with a 403. */
  lemma TextRolesRefuseOthers(kind: ContextKind, id: string)
    ensures RoleGuard.CanActivate(kind, StringRouteMeta(map[RolesKey := PathValue("admin")]),
              LookupOk(Some(UserSession(SessionRecord(id, id), User(id, RoleArray(["user"])))))).verdict == Raise(RoleGuard.Forbidden)
  {
    var store := map[RolesKey := PathValue("admin")];
    var s := UserSession(SessionRecord(id, id), User(id, RoleArray(["user"])));
    assert !IsSubstring("user", "admin") by {
      forall i | 0 <= i <= |"admin"| ensures !OccursAt("user", "admin", i) {
        if 0 <= i <= 1 {
          assert "admin"[i..i + 4][0] != 'u';
        }
      }
    }
    assert RoleMatch.RoleNames(s.user.role) == {"user"};
    TextRolesMatchBySubstring(store, kind, s);
  }

  /** What the symbol-keyed guard reads: IS_PUBLIC_AUTH and IS_OPTIONAL_AUTH; it has no role check. */
  function SymbolRouteMeta(store: Store): (m: RouteMeta)
    ensures m.isPublic <==> ReadFlag(store, IsPublicAuthKey)
    ensures m.isOptional <==> ReadFlag(store, IsOptionalAuthKey)
    ensures m.roles.None?
  {
    RouteMeta(ReadFlag(store, IsPublicAuthKey), ReadFlag(store, IsOptionalAuthKey), None)
  }

  /**
   * A route marked `Public()` of its own family is let through: the
   * `APIError` and symbol-keyed guards allow without looking the session up,
   * and the role-checking guard allows whenever its lookup does not reject,
   * whatever roles the route requires.
   */
  lemma PublicDecoratorAdmits(store: Store, kind: ContextKind, lookup: Lookup)
    ensures ApiErrorGuard.CanActivate(kind, StringRouteMeta(Public(store)), lookup) == Outcome(Allow, [ReadMeta(PublicKey)])
    ensures SymbolKeyGuard.CanActivate(kind, SymbolRouteMeta(PublicAuth(store)), lookup) == Outcome(Allow, [ReadMeta(IsPublicAuthKey)])
    ensures RoleGuard.CanActivate(kind, StringRouteMeta(Public(store)), lookup).verdict == Allow <==> lookup.LookupOk?
  {
  }

  /**
   * A route marked `Optional()` of its own family admits a request without a
   * session, outside WebSockets, in every guard of that family.
   */
  lemma OptionalDecoratorAdmitsAnonymous(store: Store, kind: ContextKind)
    requires !kind.Ws?
    ensures ApiErrorGuard.CanActivate(kind, StringRouteMeta(Optional(store)), LookupOk(None)).verdict == Allow
    ensures SymbolKeyGuard.CanActivate(kind, SymbolRouteMeta(OptionalAuth(store)), LookupOk(None)).verdict == Allow
    ensures RoleGuard.CanActivate(kind, StringRouteMeta(Optional(store)), LookupOk(None)).verdict == Allow
  {
  }

  /**
   * The decorators of one family change nothing for the guards of the other:
   * every guard's outcome is the same as on the undecorated route.
   */
  lemma DecoratorsStayInTheirFamily(store: Store, kind: ContextKind, lookup: Lookup)
    ensures SymbolKeyGuard.CanActivate(kind, SymbolRouteMeta(Public(store)), lookup)
            == SymbolKeyGuard.CanActivate(kind, SymbolRouteMeta(store), lookup)
    ensures SymbolKeyGuard.CanActivate(kind, SymbolRouteMeta(Optional(store)), lookup)
            == SymbolKeyGuard.CanActivate(kind, SymbolRouteMeta(store), lookup)
    ensures ApiErrorGuard.CanActivate(kind, StringRouteMeta(PublicAuth(store)), lookup)
            == ApiErrorGuard.CanActivate(kind, StringRouteMeta(store), lookup)
    ensures RoleGuard.CanActivate(kind, StringRouteMeta(OptionalAuth(store)), lookup)
            == RoleGuard.CanActivate(kind, StringRouteMeta(store), lookup)
  {
  }
}

=== FILE: filtered_auth_module.dfy ===
/**
 * The auth module that registers the API-error exception filter: its two
 * `forRoot` forms, and its start-up wiring of hook providers (shared, rule
 * for rule, with the plain module).
 */
module FilteredAuthModule {
  import opened Common
  import opened AuthTypes
  import opened Hooks

  /** The module's own options; `disableExceptionFilter` missing reads as false. */
  datatype AuthOptions = AuthOptions(disableExceptionFilter: bool)

  /** `forRoot({ auth, options? })`, with the instance's current `options.hooks`. */
  datatype ForRootOptions = ForRootOptions(auth: AuthInstance, hooks: HooksOption, options: Option<AuthOptions>)

  /** `forRootAsync({ imports?, inject?, options? })`; the factory itself is not modelled. */
  datatype AsyncOptions = AsyncOptions(imports: Option<seq<string>>, inject: Option<seq<string>>, options: Option<AuthOptions>)

  /** A provider the dynamic module lists. */
  datatype ProviderDef =
    | AuthInstanceValue(auth: AuthInstance)
    | AuthInstanceFactory(inject: seq<string>)
    | ModuleOptionsValue(options: Option<AuthOptions>)
    | AuthServiceClass
    | ExceptionFilter

  datatype DynamicModule = DynamicModule(global: bool, imports: seq<string>, providers: seq<ProviderDef>)

  /** What `forRoot` returns, together with the hooks it leaves on the instance. */
  datatype Rooted = Rooted(definition: DynamicModule, hooks: HooksOption)

  /** The injection token of the auth service class. */
  const AuthServiceToken: string := "AuthService"

  /** `options?.disableExceptionFilter`, read as a truth value. */
  predicate FilterDisabled(options: Option<AuthOptions>)
  {
    options.Some? && options.value.disableExceptionFilter
  }

  /** The fixed providers followed by the exception filter under APP_FILTER unless disabled. */
  function WithFilter(providers: seq<ProviderDef>, options: Option<AuthOptions>): (r: seq<ProviderDef>)
    ensures |r| >= |providers| && r[..|providers|] == providers
    ensures ExceptionFilter !in providers ==> (ExceptionFilter in r <==> !FilterDisabled(options))
    ensures |r| <= |providers| + 1
  {
    providers + (if FilterDisabled(options) then [] else [ExceptionFilter])
  }

  /**
   * `forRoot`: the instance's hooks become an object (so that the wiring at
   * start-up has somewhere to chain into), and the module lists the
   * instance, the options (`{}` when none were given), the service and,
   * unless disabled, the filter.
   */
  function ForRoot(opts: ForRootOptions): (r: Rooted)
    ensures r.definition.global && r.definition.imports == []
    ensures r.hooks.HooksObject?
    ensures opts.hooks.HooksObject? ==> r.hooks == opts.hooks
    ensures |r.definition.providers| >= 3
    ensures r.definition.providers[0] == AuthInstanceValue(opts.auth)
    ensures r.definition.providers[1] == ModuleOptionsValue(Some(if opts.options.Some? then opts.options.value else AuthOptions(false)))
    ensures r.definition.providers[2] == AuthServiceClass
    ensures ExceptionFilter in r.definition.providers <==> !FilterDisabled(opts.options)
  {
    var options := if opts.options.Some? then opts.options.value else AuthOptions(false);
    var providers := [AuthInstanceValue(opts.auth), ModuleOptionsValue(Some(options)), AuthServiceClass];
    Rooted(DynamicModule(true, [], WithFilter(providers, opts.options)), EnsureHooksObject(opts.hooks))
  }

  /**
   * `forRootAsync`: the instance comes from a factory that receives the
   * caller's injections followed by the auth service; the options are passed
   * through as given.
   */
  function ForRootAsync(opts: AsyncOptions): (r: DynamicModule)
    ensures r.global
    ensures opts.imports.Some? ==> r.imports == opts.imports.value
    ensures opts.imports.None? ==> r.imports == []
    ensures |r.providers| >= 3
    ensures r.providers[0].AuthInstanceFactory?
    ensures var inject := r.providers[0].inject;
            |inject| >= 1 && inject[|inject| - 1] == AuthServiceToken
            && (opts.inject.Some? ==> inject[..|inject| - 1] == opts.inject.value)
            && (opts.inject.None? ==> |inject| == 1)
    ensures r.providers[1] == ModuleOptionsValue(opts.options)
    ensures r.providers[2] == AuthServiceClass
    ensures ExceptionFilter in r.providers <==> !FilterDisabled(opts.options)
  {
    var inject := (if opts.inject.Some? then opts.inject.value else []) + [AuthServiceToken];
    var providers := [AuthInstanceFactory(inject), ModuleOptionsValue(opts.options), AuthServiceClass];
    // `opts.imports || []`: an empty array is truthy and kept, which is the same list
    DynamicModule(true, if opts.imports.Some? then opts.imports.value else [], WithFilter(providers, opts.options))
  }

  /**
   * Both forms register the filter under the same condition and list the
   * same providers after the instance; they differ in what they record as
   * options only when none were given (`{}` against `undefined`).
   */
  lemma CallFormsAgree(auth: AuthInstance, hooks: HooksOption, imports: Option<seq<string>>, inject: Option<seq<string>>, options: Option<AuthOptions>)
    ensures var sync := ForRoot(ForRootOptions(auth, hooks, options)).definition;
            var async := ForRootAsync(AsyncOptions(imports, inject, options));
            (ExceptionFilter in sync.providers <==> ExceptionFilter in async.providers)
            && sync.providers[2..] == async.providers[2..]
            && (sync.providers[1] == async.providers[1] <==> options.Some?)
  {
  }

  /**
   * `onModuleInit`: with no hooks object (unset, or `null`) it returns at
   * once; otherwise every method of every marked provider is chained in,
   * and only under a non-empty path.
   */
  function OnModuleInit(hooks: HooksOption, providers: seq<Provider>): (r: HooksOption)
    ensures !hooks.HooksObject? ==> r == hooks
    ensures hooks.HooksObject? ==> r.HooksObject?
  {
    WireHooks(hooks, providers, Equal)
  }

  /**
   * After `forRoot`, start-up wiring reaches every marked method whatever
   * hooks the instance had: each slot runs its earlier hooks, then, in
   * discovery order, the marked methods whose path equals the request path.
   * An instance without hooks ends up running exactly those methods.
   */
  lemma ForRootMakesHooksWirable(opts: ForRootOptions, providers: seq<Provider>, t: HookType, requestPath: string)
    ensures var wired := OnModuleInit(ForRoot(opts).hooks, providers);
            wired.HooksObject?
            && RunSlot(Slot(wired.slots, t), requestPath)
               == RunSlot(Slot(ForRoot(opts).hooks.slots, t), requestPath)
                  + Fired(HookMethods(HookProviders(providers)), t, Equal, requestPath)
    ensures !opts.hooks.HooksObject? ==>
              RunSlot(Slot(OnModuleInit(ForRoot(opts).hooks, providers).slots, t), requestPath)
              == Fired(HookMethods(HookProviders(providers)), t, Equal, requestPath)
  {
    WireHooksRuns(ForRoot(opts).hooks, providers, Equal, t, requestPath);
  }

  /**
   * Only `forRoot` prepares the hooks. `forRootAsync` leaves the instance its
   * factory built as it is, so for an instance configured without hooks the
   * start-up wiring does nothing and no decorated method ever runs, while the
   * same instance given to `forRoot` runs every marked method whose path
   * matches.
   */
  lemma OnlyForRootPreparesHooks(opts: ForRootOptions, providers: seq<Provider>, t: HookType, requestPath: string)
    requires opts.hooks.HooksUnset?
    ensures OnModuleInit(opts.hooks, providers) == HooksUnset
    ensures OnModuleInit(ForRoot(opts).hooks, providers).HooksObject?
    ensures RunSlot(Slot(OnModuleInit(ForRoot(opts).hooks, providers).slots, t), requestPath)
            == Fired(HookMethods(HookProviders(providers)), t, Equal, requestPath)
  {
    ForRootMakesHooksWirable(opts, providers, t, requestPath);
  }
}

=== FILE: guard_comparison.dfy ===
/**
 * How the role-checking guard and the `APIError` guard relate: they agree
 * on who gets in whenever no roles are required, and differ in what they do
 * on the way there.
 */
module GuardComparison {
  import opened AuthTypes
  import opened Context
  import opened GuardTypes
  import RoleGuard
  import ApiErrorGuard

  /**
   * Without a role requirement and off WebSockets, the two guards admit
   * exactly the same requests, and where they refuse they refuse for the same
   * reason (a rejected lookup, or a 401 each in its own error type). The one
   * exception is a public route whose lookup fails, below.
   */
  lemma SameAdmissionWithoutRoles(kind: ContextKind, meta: RouteMeta, lookup: Lookup)
    requires !kind.Ws? && !RolesRequired(meta)
    requires !meta.isPublic || lookup.LookupOk?
    ensures RoleGuard.CanActivate(kind, meta, lookup).verdict == Allow <==>
            ApiErrorGuard.CanActivate(kind, meta, lookup).verdict == Allow
    ensures RoleGuard.CanActivate(kind, meta, lookup).verdict == Raise(RoleGuard.Unauthorized) <==>
            ApiErrorGuard.CanActivate(kind, meta, lookup).verdict == Raise(ApiErrorGuard.Unauthorized)
    ensures RoleGuard.CanActivate(kind, meta, lookup).verdict == Raise(LookupRejected) <==>
            ApiErrorGuard.CanActivate(kind, meta, lookup).verdict == Raise(LookupRejected)
  {
  }

  /**
   * On a public route the role-checking guard still looks the session up and
   * attaches it, while the `APIError` guard reads only the flag; a failed
   * lookup therefore blocks a public route for the first and not the second.
   */
  lemma PublicRoutesDiffer(kind: ContextKind, meta: RouteMeta, lookup: Lookup)
    requires meta.isPublic
    ensures LookupSession(RequestFromContext(kind)) in RoleGuard.CanActivate(kind, meta, lookup).effects
    ensures forall e :: e in ApiErrorGuard.CanActivate(kind, meta, lookup).effects ==> e.ReadMeta?
    ensures ApiErrorGuard.CanActivate(kind, meta, lookup).verdict == Allow
    ensures RoleGuard.CanActivate(kind, meta, lookup).verdict == Allow <==> lookup.LookupOk?
  {
  }
}

=== FILE: guard_types.dfy ===
/**
 * What every guard variant consumes and produces. A guard is modelled as a
 * pure function of the context kind, the route metadata already resolved from
 * handler and class, and the outcome of the one session lookup it performs;
 * its result is the verdict together with the ordered trace of what it did
 * to the request.
 */
module GuardTypes {
  import opened Common
  import opened AuthTypes
  import opened Context
  import opened Metadata

  /** Route metadata under the keys a guard reads (absent flags read false). */
  datatype RouteMeta = RouteMeta(isPublic: bool, isOptional: bool, roles: Option<seq<string>>)

  /** The outcome of `auth.api.getSession`: it rejected, or it produced a session or null. */
  datatype Lookup = LookupFailed | LookupOk(session: Option<UserSession>)

  /**
   * What a guard throws: the lookup's own rejection passed through unchanged,
   * a Nest `HttpException` (`UnauthorizedException` 401, `ForbiddenException`
   * 403) with its response body, or a better-auth `APIError`.
   */
  datatype GuardError =
    | LookupRejected
    | HttpException(status: int, code: string, message: Option<string>)
    | ApiError(status: int, code: string, message: Option<string>)

  /** `true`, `false`, or a thrown error. */
  datatype Verdict = Allow | Deny | Raise(error: GuardError)

  /** One observable step of a guard, in the order it happens. */
  datatype Effect =
    | ReadMeta(key: MetaKey)
    | LookupSession(from: Target)
    | SetSession(on: Target, session: Option<UserSession>)
    | SetUser(on: Target, user: Option<User>)
    | Disconnect

  datatype Outcome = Outcome(verdict: Verdict, effects: seq<Effect>)

  /** `session?.user ?? null`: the user written beside the session. */
  function UserOf(session: Option<UserSession>): (u: Option<User>)
    ensures u.None? <==> session.None?
    ensures session.Some? ==> u.value == session.value.user
  {
    match session
    case None => None
    case Some(s) => Some(s.user)
  }

  /** `requiredRoles && requiredRoles.length > 0`. */
  predicate RolesRequired(meta: RouteMeta)
  {
    meta.roles.Some? && |meta.roles.value| > 0
  }
}

=== FILE: guarded_auth_module.dfy ===
/**
 * The configurable auth module that registers the role-checking guard
 * globally: its trusted-origins CORS decision and route setup, its start-up
 * check of hook providers, and its two `forRoot` call forms.
 */
module GuardedAuthModule {
  import opened Common
  import opened AuthTypes
  import opened Hooks
  import BasePath

  /**
   * `auth.options.trustedOrigins`: unset (or any falsy value), an array
   * (even an empty one, which is truthy), or a function.
   */
  datatype TrustedOrigins = OriginsUnset | OriginList(origins: seq<string>) | OriginFunction

  datatype CorsOptions = CorsOptions(origin: seq<string>, methods: seq<string>, credentials: bool)

  /** What `configure` leaves behind: CORS enabled or not, and the catch-all route. */
  datatype RouteSetup = RouteSetup(cors: Option<CorsOptions>, route: string)

  const CorsMethods: seq<string> := ["GET", "POST", "PUT", "DELETE"]

  const FunctionOriginsMessage: string :=
    "Function-based trustedOrigins not supported in NestJS. Use string array or disable CORS with disableTrustedOriginsCors: true."

  const HooksNotConfiguredMessage: string :=
    "Detected @Hook providers but Better Auth 'hooks' are not configured. Add 'hooks: {}' to your betterAuth(...) options."

  /**
   * `configure`: the CORS decision table, then the route under the
   * normalized base path. Function-based origins throw before any route is
   * registered.
   */
  function Configure(disableCors: bool, trusted: TrustedOrigins, basePath: Option<string>): (r: Result<RouteSetup>)
    ensures r.Err? <==> !disableCors && trusted.OriginFunction?
    ensures r.Err? ==> r.message == FunctionOriginsMessage
    ensures r.Ok? ==> (r.value.cors.Some? <==> !disableCors && trusted.OriginList?)
    ensures r.Ok? && r.value.cors.Some? ==>
              r.value.cors.value == CorsOptions(trusted.origins, CorsMethods, true)
    ensures r.Ok? ==> r.value.route == BasePath.CatchAllRoute(BasePath.Normalize(basePath))
  {
    // `trustedOrigins && Array.isArray(trustedOrigins)`
    var isNotFunctionBased := trusted.OriginList?;
    var route := BasePath.CatchAllRoute(BasePath.Normalize(basePath));
    if !disableCors && isNotFunctionBased then
      Ok(RouteSetup(Some(CorsOptions(trusted.origins, CorsMethods, true)), route))
    else if !trusted.OriginsUnset? && !disableCors && !isNotFunctionBased then
      Err(FunctionOriginsMessage)
    else
      Ok(RouteSetup(None, route))
  }

  /**
   * With `disableTrustedOriginsCors`, `configure` never throws and only
   * registers the route, whatever the trusted origins are.
   */
  lemma DisabledCorsOnlyRegistersRoute(trusted: TrustedOrigins, basePath: Option<string>)
    ensures Configure(true, trusted, basePath) == Ok(RouteSetup(None, BasePath.CatchAllRoute(BasePath.Normalize(basePath))))
  {
  }

  /**
   * The CORS decision never changes where the route goes: any two
   * configurations that do not throw register the same route.
   */
  lemma RouteIndependentOfCors(d1: bool, t1: TrustedOrigins, d2: bool, t2: TrustedOrigins, basePath: Option<string>)
    requires Configure(d1, t1, basePath).Ok? && Configure(d2, t2, basePath).Ok?
    ensures Configure(d1, t1, basePath).value.route == Configure(d2, t2, basePath).value.route
  {
  }

  /**
   * `onModuleInit`: marked providers without a hooks object are a start-up
   * error. `typeof null === 'object'` lets a `null` hooks object through the
   * check, after which `setupHooks` returns at once, so nothing is wired.
   */
  function OnModuleInit(hooks: HooksOption, providers: seq<Provider>): (r: Result<HooksOption>)
    ensures r.Err? <==> hooks.HooksUnset? && exists p :: p in providers && IsHookProvider(p)
    ensures r.Err? ==> r.message == HooksNotConfiguredMessage
    ensures r.Ok? && !hooks.HooksObject? ==> r.value == hooks
    ensures r.Ok? && hooks.HooksObject? ==> r.value == WireHooks(hooks, providers, EmptyOrEqual)
  {
    var hasHookProviders := |HookProviders(providers)| > 0;
    var hooksConfigured := !hooks.HooksUnset?;
    assert hasHookProviders <==> exists p :: p in providers && IsHookProvider(p) by {
      if hasHookProviders {
        assert HookProviders(providers)[0] in HookProviders(providers);
      }
    }
    if hasHookProviders && !hooksConfigured then Err(HooksNotConfiguredMessage)
    else if !hooksConfigured then Ok(hooks)
    else Ok(WireHooks(hooks, providers, EmptyOrEqual))
  }

  /** The module's own flags; a missing flag reads as false. */
  datatype ExtraOptions = ExtraOptions(disableTrustedOriginsCors: bool, disableBodyParser: bool, disableGlobalAuthGuard: bool)

  datatype ModuleOptions = ModuleOptions(auth: AuthInstance, extras: ExtraOptions)

  /** `forRoot({ auth, ...flags })` or `forRoot(auth, flags?)`. */
  datatype ForRootArgument = OptionsArgument(options: ModuleOptions) | AuthArgument(auth: AuthInstance, rest: Option<ExtraOptions>)

  const NoExtras: ExtraOptions := ExtraOptions(false, false, false)

  /** The options object both call forms are reduced to. */
  function NormalizeForRoot(arg: ForRootArgument): (o: ModuleOptions)
    ensures arg.OptionsArgument? ==> o == arg.options
    ensures arg.AuthArgument? ==> o.auth == arg.auth
    ensures arg.AuthArgument? && arg.rest.None? ==> o.extras == NoExtras
  {
    match arg
    case OptionsArgument(options) => options
    // `{ ...argument2, auth: argument1 }`
    case AuthArgument(auth, rest) => ModuleOptions(auth, if rest.Some? then rest.value else NoExtras)
  }

  /** The two call forms configure the same module from the same instance and flags. */
  lemma CallFormsAgree(auth: AuthInstance, extras: ExtraOptions)
    ensures NormalizeForRoot(AuthArgument(auth, Some(extras))) == NormalizeForRoot(OptionsArgument(ModuleOptions(auth, extras)))
  {
  }

  /** A provider the dynamic module lists: the builder's own, or the global guard. */
  datatype ProviderDef = BuilderProvider(token: string) | GlobalAuthGuard

  /** Tokens of the providers the configurable-module builder contributes. */
  type BuilderToken = string

  function Builder(tokens: seq<BuilderToken>): (r: seq<ProviderDef>)
    ensures |r| == |tokens|
    ensures forall i :: 0 <= i < |tokens| ==> r[i] == BuilderProvider(tokens[i])
    ensures GlobalAuthGuard !in r
  {
    seq(|tokens|, i requires 0 <= i < |tokens| => BuilderProvider(tokens[i]))
  }

  /**
   * The providers `forRoot`/`forRootAsync` return: the builder's list,
   * followed by the role-checking guard under APP_GUARD unless disabled.
   */
  function WithGlobalGuard(builderProviders: seq<ProviderDef>, disableGlobalAuthGuard: bool): (r: seq<ProviderDef>)
    ensures |r| >= |builderProviders| && r[..|builderProviders|] == builderProviders
    ensures disableGlobalAuthGuard ==> r == builderProviders
    ensures !disableGlobalAuthGuard ==> r == builderProviders + [GlobalAuthGuard]
  {
    builderProviders + (if disableGlobalAuthGuard then [] else [GlobalAuthGuard])
  }

  function ForRoot(arg: ForRootArgument, builderProviders: seq<BuilderToken>): (r: seq<ProviderDef>)
    ensures GlobalAuthGuard in r <==> !NormalizeForRoot(arg).extras.disableGlobalAuthGuard
    ensures |r| >= |builderProviders|
  {
    WithGlobalGuard(Builder(builderProviders), NormalizeForRoot(arg).extras.disableGlobalAuthGuard)
  }

  function ForRootAsync(disableGlobalAuthGuard: bool, builderProviders: seq<BuilderToken>): (r: seq<ProviderDef>)
    ensures GlobalAuthGuard in r <==> !disableGlobalAuthGuard
    ensures |r| >= |builderProviders|
  {
    WithGlobalGuard(Builder(builderProviders), disableGlobalAuthGuard)
  }

  /**
   * The synchronous form adds exactly what the asynchronous one adds for the
   * same flag: after normalizing its arguments, `forRoot` is `forRootAsync`
   * given the normalized `disableGlobalAuthGuard`.
   */
  lemma ForRootIsForRootAsyncOfNormalizedFlag(arg: ForRootArgument, builderProviders: seq<BuilderToken>)
    ensures ForRoot(arg, builderProviders) == ForRootAsync(NormalizeForRoot(arg).extras.disableGlobalAuthGuard, builderProviders)
  {
  }

}

=== FILE: hooks.dfy ===
/**
 * Hook chaining: every `@BeforeHook`/`@AfterHook` method found at start-up
 * replaces the library's `hooks.before`/`hooks.after` function by a wrapper
 * that first runs the function it replaced and then runs the method when
 * its path matches the request's. The wrappers are modelled as a chain of
 * `Wrapped` values and running one as the sequence of calls it makes.
 */
module Hooks {
  import opened Common
  import opened Metadata

  /** How a wrapper decides whether its method runs for a request path. */
  datatype MatchRule =
    // registered whenever the key is present; runs unless a non-empty path differs
    | EmptyOrEqual
    // registered only for a non-empty path; runs on an exactly equal path
    | Equal

  datatype HookType = Before | After

  /** A provider method as the metadata scanner yields it: its name and its metadata. */
  datatype HookMethod = HookMethod(name: string, meta: Store)

  /** An installed hook: one the application configured, or a wrapper around the previous one. */
  datatype Hook =
    | UserHook(name: string)
    | Wrapped(original: Option<Hook>, rule: MatchRule, path: string, handler: string)

  /**
   * The `this` a decorated method is called with: the provider instance
   * (`providerMethod.apply(instance, [context])`), or none at all
   * (`providerMethod(context)`), in which case a method that reads `this`
   * throws.
   */
  datatype Receiver = ProviderInstance | NoReceiver

  /** One function invocation while a hook runs. */
  datatype Call = UserCall(name: string) | MethodCall(handler: string, receiver: Receiver)

  /** The library's hooks object: its `before` and `after` entries. */
  datatype HookSlots = HookSlots(before: Option<Hook>, after: Option<Hook>)

  /** `auth.options.hooks`: unset, `null`, or an object. */
  datatype HooksOption = HooksUnset | HooksNull | HooksObject(slots: HookSlots)

  /** A discovered provider: the metadata of its class, when it has one, and its methods. */
  datatype Provider = Provider(metatype: Option<Store>, methods: seq<HookMethod>)

  /**
   * The receiver each wiring passes: the module that registers under
   * `EmptyOrEqual` binds the provider instance, the two that register under
   * `Equal` call the method unbound.
   */
  function ReceiverFor(rule: MatchRule): Receiver
  {
    match rule
    case EmptyOrEqual => ProviderInstance
    case Equal => NoReceiver
  }

  /**
   * Whether a wrapped method runs for a request path: `!hookPath || hookPath
   * === ctx.path` under `EmptyOrEqual`, `hookPath === ctx.path` under `Equal`.
   */
  function Fires(rule: MatchRule, path: string, requestPath: string): (b: bool)
    ensures path != "" ==> (b <==> path == requestPath)
    ensures path == "" ==> (b <==> rule.EmptyOrEqual? || requestPath == "")
  {
    match rule
    case EmptyOrEqual => !(path != "" && path != requestPath)
    case Equal => path == requestPath
  }

  /**
   * The calls a hook attempts for a request path: the replaced hook's calls
   * first. A call that throws ends the run early; `Executed` below says
   * which of these calls then actually happen.
   */
  function Run(h: Hook, requestPath: string): (r: seq<Call>)
    ensures h.UserHook? ==> r == [UserCall(h.name)]
    // the configured hook, if any, runs first; everything after it is a decorated method
    ensures forall i :: 0 < i < |r| ==> r[i].MethodCall?
    // the outermost wrapper's method, when it fires, runs last
    ensures h.Wrapped? && Fires(h.rule, h.path, requestPath) ==>
              |r| > 0 && r[|r| - 1] == MethodCall(h.handler, ReceiverFor(h.rule))
  {
    match h
    case UserHook(name) => [UserCall(name)]
    case Wrapped(original, rule, path, handler) =>
      (if original.Some? then Run(original.value, requestPath) else [])
      + (if Fires(rule, path, requestPath) then [MethodCall(handler, ReceiverFor(rule))] else [])
  }

  function RunSlot(slot: Option<Hook>, requestPath: string): seq<Call>
  {
    if slot.Some? then Run(slot.value, requestPath) else []
  }

  function Slot(slots: HookSlots, t: HookType): Option<Hook>
  {
    if t.Before? then slots.before else slots.after
  }

  function KeyFor(t: HookType): MetaKey
  {
    if t.Before? then BeforeHookKey else AfterHookKey
  }

  /**
   * The path a method is wrapped with for one hook type, or none when
   * `setupHooks` skips it: under `EmptyOrEqual` any path under the key is
   * taken (`hasMetadata`), under `Equal` only a non-empty one (`if (!hookPath)
   * continue`).
   */
  function Registration(rule: MatchRule, m: HookMethod, t: HookType): (reg: Option<string>)
    ensures reg.Some? ==> HookPath(m.meta, KeyFor(t)) == reg
    ensures rule.Equal? ==> (reg.Some? <==> HookPath(m.meta, KeyFor(t)).Some? && HookPath(m.meta, KeyFor(t)).value != "")
    ensures rule.EmptyOrEqual? ==> reg == HookPath(m.meta, KeyFor(t))
  {
    var path := HookPath(m.meta, KeyFor(t));
    match rule
    case EmptyOrEqual => path
    case Equal => if path.Some? && path.value != "" then path else None
  }

  /** One iteration of `setupHooks`'s loop: wrap one slot, or leave it. */
  function SetupHook(slots: HookSlots, m: HookMethod, t: HookType, rule: MatchRule): (r: HookSlots)
    ensures Slot(r, if t.Before? then After else Before) == Slot(slots, if t.Before? then After else Before)
    ensures Registration(rule, m, t).None? ==> r == slots
    ensures Registration(rule, m, t).Some? ==>
              Slot(r, t) == Some(Wrapped(Slot(slots, t), rule, Registration(rule, m, t).value, m.name))
  {
    var reg := Registration(rule, m, t);
    if reg.None? then slots
    else
      var wrapper := Some(Wrapped(Slot(slots, t), rule, reg.value, m.name));
      if t.Before? then slots.(before := wrapper) else slots.(after := wrapper)
  }

  /** `setupHooks(method)`: the before entry, then the after entry. */
  function SetupHooks(slots: HookSlots, m: HookMethod, rule: MatchRule): (r: HookSlots)
    // each entry is wrapped as if it were the only one the method carried
    ensures r.before == Slot(SetupHook(slots, m, Before, rule), Before)
    ensures r.after == Slot(SetupHook(slots, m, After, rule), After)
    ensures Registration(rule, m, Before).None? && Registration(rule, m, After).None? ==> r == slots
  {
    SetupHook(SetupHook(slots, m, Before, rule), m, After, rule)
  }

  /** `setupHooks` over every discovered method, in discovery order. */
  function InstallAll(slots: HookSlots, methods: seq<HookMethod>, rule: MatchRule): (r: HookSlots)
    // methods registered for neither hook type leave the hooks as they were
    ensures (forall i :: 0 <= i < |methods| ==>
               Registration(rule, methods[i], Before).None? && Registration(rule, methods[i], After).None?)
            ==> r == slots
    decreases |methods|
  {
    if |methods| == 0 then slots
    else InstallAll(SetupHooks(slots, methods[0], rule), methods[1..], rule)
  }

  /**
   * The reference: the methods that run for a hook type and request path,
   * in registration order.
   */
  function Fired(methods: seq<HookMethod>, t: HookType, rule: MatchRule, requestPath: string): seq<Call>
  {
    if |methods| == 0 then []
    else
      var reg := Registration(rule, methods[0], t);
      (if reg.Some? && Fires(rule, reg.value, requestPath) then [MethodCall(methods[0].name, ReceiverFor(rule))] else [])
        + Fired(methods[1..], t, rule, requestPath)
  }

  /** Installing one method appends its call, if it fires, after everything the slot already did. */
  lemma SetupHooksRuns(slots: HookSlots, m: HookMethod, t: HookType, rule: MatchRule, requestPath: string)
    ensures RunSlot(Slot(SetupHooks(slots, m, rule), t), requestPath)
            == RunSlot(Slot(slots, t), requestPath) + Fired([m], t, rule, requestPath)
  {
  }

  /**
   * Chaining preserves order: after installing a list of methods, running a
   * slot makes the calls the slot made before, followed by the calls of the
   * methods that fire, in the order they were installed.
   */
  lemma {:induction false} InstallAllRuns(slots: HookSlots, methods: seq<HookMethod>, t: HookType, rule: MatchRule, requestPath: string)
    ensures RunSlot(Slot(InstallAll(slots, methods, rule), t), requestPath)
            == RunSlot(Slot(slots, t), requestPath) + Fired(methods, t, rule, requestPath)
    decreases |methods|
  {
    if |methods| > 0 {
      var next := SetupHooks(slots, methods[0], rule);
      InstallAllRuns(next, methods[1..], t, rule, requestPath);
      SetupHooksRuns(slots, methods[0], t, rule, requestPath);
      assert [methods[0]][1..] == [];
      assert Fired(methods, t, rule, requestPath)
             == Fired([methods[0]], t, rule, requestPath) + Fired(methods[1..], t, rule, requestPath);
    }
  }

  /**
   * A method's call appears exactly when it is registered for the hook type
   * and its path fires for the request path.
   */
  lemma {:induction false} FiredMembers(methods: seq<HookMethod>, t: HookType, rule: MatchRule, requestPath: string, name: string)
    ensures MethodCall(name, ReceiverFor(rule)) in Fired(methods, t, rule, requestPath) <==>
            exists i :: 0 <= i < |methods| && methods[i].name == name
                        && Registration(rule, methods[i], t).Some?
                        && Fires(rule, Registration(rule, methods[i], t).value, requestPath)
  {
    if |methods| > 0 {
      FiredMembers(methods[1..], t, rule, requestPath, name);
      if exists i :: 0 <= i < |methods| && methods[i].name == name
                     && Registration(rule, methods[i], t).Some?
                     && Fires(rule, Registration(rule, methods[i], t).value, requestPath) {
        var i :| 0 <= i < |methods| && methods[i].name == name
                 && Registration(rule, methods[i], t).Some?
                 && Fires(rule, Registration(rule, methods[i], t).value, requestPath);
        if i > 0 {
          assert methods[1..][i - 1] == methods[i];
        }
      }
      if MethodCall(name, ReceiverFor(rule)) in Fired(methods[1..], t, rule, requestPath) {
        var j :| 0 <= j < |methods[1..]| && methods[1..][j].name == name
                 && Registration(rule, methods[1..][j], t).Some?
                 && Fires(rule, Registration(rule, methods[1..][j], t).value, requestPath);
        assert methods[j + 1] == methods[1..][j];
      }
    }
  }

  /**
   * The two rules differ in when a method runs only for an empty path: under
   * `EmptyOrEqual` such a method runs for every request path, under `Equal`
   * it is never installed. For any other path both run it exactly on the
   * same request paths, bound to the provider under the first and unbound
   * under the second.
   */
  lemma RulesDifferOnlyOnEmptyPaths(m: HookMethod, t: HookType, requestPath: string)
    ensures HookPath(m.meta, KeyFor(t)) == Some("") ==>
              Fired([m], t, EmptyOrEqual, requestPath) == [MethodCall(m.name, ProviderInstance)]
              && Fired([m], t, Equal, requestPath) == []
    ensures HookPath(m.meta, KeyFor(t)) != Some("") ==>
              (Fired([m], t, EmptyOrEqual, requestPath) == [MethodCall(m.name, ProviderInstance)]
               <==> Fired([m], t, Equal, requestPath) == [MethodCall(m.name, NoReceiver)])
    ensures HookPath(m.meta, KeyFor(t)) != Some("") ==>
              (Fired([m], t, EmptyOrEqual, requestPath) == [] <==> Fired([m], t, Equal, requestPath) == [])
  {
  }

  /** Every decorated method wired under `Equal` is called without a receiver. */
  lemma {:induction false} EqualWiringCallsUnbound(methods: seq<HookMethod>, t: HookType, requestPath: string)
    ensures forall c :: c in Fired(methods, t, Equal, requestPath) ==> c.MethodCall? && c.receiver == NoReceiver
  {
    if |methods| > 0 {
      EqualWiringCallsUnbound(methods[1..], t, requestPath);
    }
  }

  /**
   * Where a run stops when the calls at the positions in `throwing` throw,
   * looking from position `i` on: just after the first throwing position, or
   * at the end `n` when none throws.
   */
  function StopAt(n: nat, throwing: set<nat>, i: nat): (stop: nat)
    requires i <= n
    ensures i <= stop <= n
    ensures forall j :: i <= j < stop - 1 ==> j !in throwing
    ensures stop < n ==> stop > i && stop - 1 in throwing
    ensures (forall j :: i <= j < n ==> j !in throwing) ==> stop == n
    decreases n - i
  {
    if i == n then n
    else if i in throwing then i + 1
    else StopAt(n, throwing, i + 1)
  }

  /**
   * The calls that actually happen when the calls at the positions in
   * `throwing` throw: every call up to and including the first that throws.
   * An exception rejects the awaiting wrapper, so nothing after it in the
   * chain runs. Throws are told apart by position, so two methods of the
   * same name on different providers throw independently.
   */
  function Executed(calls: seq<Call>, throwing: set<nat>): (done: seq<Call>)
    ensures |done| <= |calls| && done == calls[..|done|]
    ensures forall i :: 0 <= i < |done| - 1 ==> i !in throwing
    ensures |done| < |calls| ==> |done| > 0 && |done| - 1 in throwing
    ensures (forall i :: 0 <= i < |calls| ==> i !in throwing) ==> done == calls
  {
    calls[..StopAt(|calls|, throwing, 0)]
  }

  /** A throw before position `m` stops the run at the same place whatever follows `m`. */
  lemma {:induction false} StopAtIgnoresTail(m: nat, n: nat, throwing: set<nat>, i: nat)
    requires i <= m <= n
    requires exists j :: i <= j < m && j in throwing
    ensures StopAt(n, throwing, i) == StopAt(m, throwing, i)
    decreases m - i
  {
    if i !in throwing {
      var j :| i <= j < m && j in throwing;
      assert j != i;
      StopAtIgnoresTail(m, n, throwing, i + 1);
    }
  }

  /** Once a call throws, nothing listed after it runs. */
  lemma ThrowStopsChain(before: seq<Call>, after: seq<Call>, throwing: set<nat>)
    requires exists i :: 0 <= i < |before| && i in throwing
    ensures Executed(before + after, throwing) == Executed(before, throwing)
  {
    StopAtIgnoresTail(|before|, |before + after|, throwing, 0);
    var k := StopAt(|before|, throwing, 0);
    assert (before + after)[..k] == before[..k];
  }

  /**
   * A throwing earlier hook keeps every decorated method installed after it
   * from running: the slot then does exactly what it did before wiring.
   */
  lemma ThrowingHookSkipsDecoratedMethods(slots: HookSlots, methods: seq<HookMethod>, t: HookType, rule: MatchRule, requestPath: string, throwing: set<nat>)
    requires exists i :: 0 <= i < |RunSlot(Slot(slots, t), requestPath)| && i in throwing
    ensures Executed(RunSlot(Slot(InstallAll(slots, methods, rule), t), requestPath), throwing)
            == Executed(RunSlot(Slot(slots, t), requestPath), throwing)
  {
    InstallAllRuns(slots, methods, t, rule, requestPath);
    ThrowStopsChain(RunSlot(Slot(slots, t), requestPath), Fired(methods, t, rule, requestPath), throwing);
  }

  /**
   * Whether running the hook hands its own result back to the library: a
   * configured hook does; a wrapper awaits what it wraps and returns nothing.
   */
  predicate ForwardsResult(h: Hook)
  {
    h.UserHook?
  }

  /** Wrapping keeps a slot wrapped: later methods only add layers. */
  lemma {:induction false} StaysWrapped(slots: HookSlots, methods: seq<HookMethod>, t: HookType, rule: MatchRule)
    requires Slot(slots, t).Some? && Slot(slots, t).value.Wrapped?
    ensures Slot(InstallAll(slots, methods, rule), t).Some? && Slot(InstallAll(slots, methods, rule), t).value.Wrapped?
    decreases |methods|
  {
    if |methods| > 0 {
      var next := SetupHooks(slots, methods[0], rule);
      StaysWrapped(next, methods[1..], t, rule);
    }
  }

  /**
   * As soon as one method is registered for a hook type, that slot's result
   * no longer reaches the library: a configured hook's return value is
   * dropped by the wrapper around it.
   */
  lemma {:induction false} WiringDiscardsResults(slots: HookSlots, methods: seq<HookMethod>, t: HookType, rule: MatchRule)
    requires exists i :: 0 <= i < |methods| && Registration(rule, methods[i], t).Some?
    ensures Slot(InstallAll(slots, methods, rule), t).Some?
    ensures !ForwardsResult(Slot(InstallAll(slots, methods, rule), t).value)
    decreases |methods|
  {
    var next := SetupHooks(slots, methods[0], rule);
    if Registration(rule, methods[0], t).Some? {
      StaysWrapped(next, methods[1..], t, rule);
    } else {
      var i :| 0 <= i < |methods| && Registration(rule, methods[i], t).Some?;
      assert methods[1..][i - 1] == methods[i];
      WiringDiscardsResults(next, methods[1..], t, rule);
    }
  }

  /** A provider whose class carries the `Hook()` marker. */
  predicate IsHookProvider(p: Provider)
  {
    p.metatype.Some? && ReadFlag(p.metatype.value, HookKey)
  }

  /** The discovered providers whose class carries the marker, in discovery order. */
  function HookProviders(providers: seq<Provider>): (r: seq<Provider>)
    ensures forall p :: p in r <==> p in providers && IsHookProvider(p)
  {
    if |providers| == 0 then []
    else (if IsHookProvider(providers[0]) then [providers[0]] else []) + HookProviders(providers[1..])
  }

  /** The methods of the marked providers, provider by provider, in discovery order. */
  function HookMethods(providers: seq<Provider>): (ms: seq<HookMethod>)
  {
    if |providers| == 0 then []
    else providers[0].methods + HookMethods(providers[1..])
  }

  /**
   * The wiring loop of `onModuleInit` once hooks are known to be configured:
   * with no hooks object (unset, or `null`, which `setupHooks` also rejects)
   * nothing changes; otherwise every method of every marked provider is
   * chained into the slots.
   */
  function WireHooks(hooks: HooksOption, providers: seq<Provider>, rule: MatchRule): (r: HooksOption)
    ensures !hooks.HooksObject? ==> r == hooks
    ensures hooks.HooksObject? ==> r.HooksObject?
  {
    match hooks
    case HooksObject(slots) => HooksObject(InstallAll(slots, HookMethods(HookProviders(providers)), rule))
    case _ => hooks
  }

  /**
   * After wiring, each slot runs what it ran before and then, in discovery
   * order, exactly the methods of marked providers that fire for the path.
   */
  lemma WireHooksRuns(hooks: HooksOption, providers: seq<Provider>, rule: MatchRule, t: HookType, requestPath: string)
    requires hooks.HooksObject?
    ensures RunSlot(Slot(WireHooks(hooks, providers, rule).slots, t), requestPath)
            == RunSlot(Slot(hooks.slots, t), requestPath)
               + Fired(HookMethods(HookProviders(providers)), t, rule, requestPath)
  {
    InstallAllRuns(hooks.slots, HookMethods(HookProviders(providers)), t, rule, requestPath);
  }

  /** A method of an unmarked provider is never wired, whatever its hook metadata. */
  lemma {:induction false} UnmarkedProvidersContributeNothing(providers: seq<Provider>, p: Provider)
    requires !IsHookProvider(p)
    ensures HookProviders(providers + [p]) == HookProviders(providers)
  {
    if |providers| > 0 {
      assert (providers + [p])[1..] == providers[1..] + [p];
      UnmarkedProvidersContributeNothing(providers[1..], p);
    } else {
      assert HookProviders([p]) == HookProviders([]);
    }
  }

  /** `{ ...hooks }`: always an object, with the entries the old one had. */
  function EnsureHooksObject(hooks: HooksOption): (r: HooksOption)
    ensures r.HooksObject?
    ensures hooks.HooksObject? ==> r == hooks
    ensures !hooks.HooksObject? ==> r.slots == HookSlots(None, None)
  {
    match hooks
    case HooksObject(slots) => HooksObject(slots)
    case _ => HooksObject(HookSlots(None, None))
  }
}

=== FILE: metadata.dfy ===
/**
 * Decorator metadata: the keys the decorators write and the guards and
 * modules read, and the decorators themselves as updates of one target's
 * metadata store.
 */
module Metadata {
  import opened Common

  /**
   * A metadata key. String keys compare by content; each `Symbol(...)` is a
   * distinct value, represented here by its description. The hook keys are
   * declared twice, in src/symbols.ts (used by src/decorators.ts and the two
   * older module files) and in src/constants/hooks.const.ts (used by
   * src/decorators/hooks.decorator.ts and src/better-auth.module.ts); neither
   * file is part of this model, and the model takes each pair to be the SAME
   * symbol, so that one `BeforeHook`, `AfterHook` or `Hook` key serves every
   * module. The symbols are taken to be distinct from each other and from the
   * string keys.
   */
  datatype MetaKey = StringKey(name: string) | SymbolKey(description: string)

  /** Keys read by the string-keyed guards and written by `Public`/`Optional`. */
  const PublicKey: MetaKey := StringKey("PUBLIC")
  const OptionalKey: MetaKey := StringKey("OPTIONAL")
  const RolesKey: MetaKey := StringKey("ROLES")

  /** Keys read by the symbol-keyed guard. */
  const IsPublicAuthKey: MetaKey := SymbolKey("IS_PUBLIC_AUTH")
  const IsOptionalAuthKey: MetaKey := SymbolKey("IS_OPTIONAL_AUTH")

  /** Hook keys: per-method path markers and the per-class provider marker. */
  const BeforeHookKey: MetaKey := SymbolKey("BEFORE_HOOK")
  const AfterHookKey: MetaKey := SymbolKey("AFTER_HOOK")
  const HookKey: MetaKey := SymbolKey("HOOK")

  /** A stored metadata value: a flag, a hook path, or a list of role names. */
  datatype MetaValue = Flag(on: bool) | PathValue(path: string) | RoleNames(names: seq<string>)

  /** The metadata attached to one handler, class or method. */
  type Store = map<MetaKey, MetaValue>

  /** JavaScript truthiness of a stored value. */
  predicate Truthy(v: MetaValue)
  {
    match v
    case Flag(on) => on
    case PathValue(path) => path != ""
    case RoleNames(_) => true
  }

  /** Reading a key as a boolean: a missing key reads as `undefined`, which is falsy. */
  predicate ReadFlag(store: Store, key: MetaKey)
  {
    key in store && Truthy(store[key])
  }

  /** `SetMetadata(key, value)` applied to a store: sets one key and keeps every other entry. */
  function SetMetadata(store: Store, key: MetaKey, value: MetaValue): (r: Store)
    ensures r.Keys == store.Keys + {key}
    ensures r[key] == value
    ensures forall k :: k in store && k != key ==> r[k] == store[k]
  {
    store[key := value]
  }

  /** Every entry of `before` other than `key` is still in `after`, unchanged. */
  predicate KeepsOthers(before: Store, after: Store, key: MetaKey)
  {
    forall k :: k in before && k != key ==> k in after && after[k] == before[k]
  }

  /** The hook path a method carries under `key`, if a hook decorator put one there. */
  function HookPath(store: Store, key: MetaKey): Option<string>
  {
    if key in store && store[key].PathValue? then Some(store[key].path) else None
  }

  /** `Public()` from the string-keyed decorators: 'PUBLIC' set to true. */
  function Public(store: Store): (r: Store)
    ensures ReadFlag(r, PublicKey)
    ensures KeepsOthers(store, r, PublicKey)
  {
    SetMetadata(store, PublicKey, Flag(true))
  }

  /** `Optional()` from the string-keyed decorators: 'OPTIONAL' set to true. */
  function Optional(store: Store): (r: Store)
    ensures ReadFlag(r, OptionalKey)
    ensures KeepsOthers(store, r, OptionalKey)
  {
    SetMetadata(store, OptionalKey, Flag(true))
  }

  /** The symbol-keyed `Public()`: IS_PUBLIC_AUTH set to true. */
  function PublicAuth(store: Store): (r: Store)
    ensures ReadFlag(r, IsPublicAuthKey)
    ensures KeepsOthers(store, r, IsPublicAuthKey)
  {
    SetMetadata(store, IsPublicAuthKey, Flag(true))
  }

  /** The symbol-keyed `Optional()`: IS_OPTIONAL_AUTH set to true. */
  function OptionalAuth(store: Store): (r: Store)
    ensures ReadFlag(r, IsOptionalAuthKey)
    ensures KeepsOthers(store, r, IsOptionalAuthKey)
  {
    SetMetadata(store, IsOptionalAuthKey, Flag(true))
  }

  /** `BeforeHook(path)`: the path stored under the before-hook key of a method, even an empty one. */
  function BeforeHook(store: Store, path: string): (r: Store)
    ensures HookPath(r, BeforeHookKey) == Some(path)
    ensures KeepsOthers(store, r, BeforeHookKey)
  {
    SetMetadata(store, BeforeHookKey, PathValue(path))
  }

  /** `AfterHook(path)`: the path stored under the after-hook key of a method, even an empty one. */
  function AfterHook(store: Store, path: string): (r: Store)
    ensures HookPath(r, AfterHookKey) == Some(path)
    ensures KeepsOthers(store, r, AfterHookKey)
  {
    SetMetadata(store, AfterHookKey, PathValue(path))
  }

  /** `Hook()`: marks a provider class as holding hook methods. */
  function Hook(store: Store): (r: Store)
    ensures ReadFlag(r, HookKey)
    ensures KeepsOthers(store, r, HookKey)
  {
    SetMetadata(store, HookKey, Flag(true))
  }

  /**
   * The string-keyed decorators are seen by the string-keyed guards only:
   * after `Public()` the 'PUBLIC' flag reads true while the symbol-keyed
   * IS_PUBLIC_AUTH flag reads exactly as before, and likewise for `Optional()`.
   */
  lemma StringDecoratorsInvisibleToSymbolKeys(store: Store)
    ensures ReadFlag(Public(store), PublicKey)
    ensures ReadFlag(Public(store), IsPublicAuthKey) == ReadFlag(store, IsPublicAuthKey)
    ensures ReadFlag(Optional(store), OptionalKey)
    ensures ReadFlag(Optional(store), IsOptionalAuthKey) == ReadFlag(store, IsOptionalAuthKey)
  {
  }

  /** The symbol-keyed decorators are in turn invisible to the string keys. */
  lemma SymbolDecoratorsInvisibleToStringKeys(store: Store)
    ensures ReadFlag(PublicAuth(store), IsPublicAuthKey)
    ensures ReadFlag(PublicAuth(store), PublicKey) == ReadFlag(store, PublicKey)
    ensures ReadFlag(OptionalAuth(store), IsOptionalAuthKey)
    ensures ReadFlag(OptionalAuth(store), OptionalKey) == ReadFlag(store, OptionalKey)
  {
  }

  /**
   * `BeforeHook`/`AfterHook` record their path under their own key and leave
   * the other hook key and the provider marker alone.
   */
  lemma HookDecoratorsRecordPath(store: Store, path: string)
    ensures HookPath(BeforeHook(store, path), BeforeHookKey) == Some(path)
    ensures HookPath(BeforeHook(store, path), AfterHookKey) == HookPath(store, AfterHookKey)
    ensures HookPath(AfterHook(store, path), AfterHookKey) == Some(path)
    ensures HookPath(AfterHook(store, path), BeforeHookKey) == HookPath(store, BeforeHookKey)
    ensures ReadFlag(Hook(store), HookKey)
    ensures ReadFlag(BeforeHook(store, path), HookKey) == ReadFlag(store, HookKey)
  {
  }
}

=== FILE: param_decorators.dfy ===
/**
 * The parameter decorators that hand a controller the attached session: the
 * key-switching `CurrentUserSession` and the property-reading `Session`.
 */
module ParamDecorators {
  import opened Common
  import opened AuthTypes
  import opened Context

  /** A request as a guard left it: its headers and the session attached to it, if any. */
  datatype Request = Request(headers: Headers, session: Option<UserSession>)

  /**
   * The decorator's argument: none (`undefined`/`null`), 'session', 'user',
   * 'headers', or any other property name.
   */
  datatype ParamKey = NoKey | SessionKey | UserKey | HeadersKey | OtherKey(name: OtherName)

  /** A property name other than the three the decorators know, so each key has one encoding. */
  type OtherName = n: string | n != "session" && n != "user" && n != "headers" witness "id"

  /**
   * The parameter a handler receives: `undefined`, the user, the session
   * record, the raw headers, or a plain object with optional `session`,
   * `user` and `headers` properties.
   */
  datatype ParamValue =
    | Undefined
    | UserValue(user: User)
    | RecordValue(record: SessionRecord)
    | HeadersValue(headers: Headers)
    | Object(sessionProp: Option<SessionRecord>, userProp: Option<User>, headersProp: Option<Headers>)

  /** Reading a property would dereference `undefined`. */
  datatype ParamResult = Value(value: ParamValue) | TypeError

  /**
   * The request both decorators read: the GraphQL context's `req` (which may
   * be missing) for 'graphql', otherwise the HTTP request.
   */
  function SelectRequest(kind: ContextKind, http: Request, graphqlReq: Option<Request>): (r: Option<Request>)
    ensures HttpOrGraphQLRequest(kind) == HttpRequest ==> r == Some(http)
    ensures HttpOrGraphQLRequest(kind) == GraphQLRequest ==> r == graphqlReq
  {
    if kind.GraphQL? then graphqlReq else Some(http)
  }

  /** `{ ...request?.session, headers: request?.headers }`. */
  function SpreadWithHeaders(request: Option<Request>): (v: ParamValue)
    ensures v.Object?
    ensures request.None? ==> v == Object(None, None, None)
    ensures request.Some? ==> v.headersProp == Some(request.value.headers)
    ensures request.Some? && request.value.session.Some? ==>
              v.sessionProp == Some(request.value.session.value.session) && v.userProp == Some(request.value.session.value.user)
    ensures request.Some? && request.value.session.None? ==> v == Object(None, None, Some(request.value.headers))
  {
    match request
    case None => Object(None, None, None)
    case Some(req) =>
      match req.session
      case None => Object(None, None, Some(req.headers))
      case Some(s) => Object(Some(s.session), Some(s.user), Some(req.headers))
  }

  /** Property `session` or `user` of the attached session, `undefined` when none is attached. */
  function SessionField(session: Option<UserSession>, key: ParamKey): ParamValue
  {
    match session
    case None => Undefined
    case Some(s) =>
      if key.SessionKey? then RecordValue(s.session)
      else if key.UserKey? then UserValue(s.user)
      else Undefined
  }

  /** `CurrentUserSession`: a switch on the key. */
  function CurrentUserSession(key: ParamKey, kind: ContextKind, http: Request, graphqlReq: Option<Request>): (r: ParamResult)
    ensures key.NoKey? ==> r == Value(SpreadWithHeaders(SelectRequest(kind, http, graphqlReq)))
    ensures (key.SessionKey? || key.UserKey? || key.HeadersKey?) ==>
              (r.TypeError? <==> SelectRequest(kind, http, graphqlReq).None?)
    ensures key.SessionKey? && r.Value? ==>
              (r.value.Undefined? <==> SelectRequest(kind, http, graphqlReq).value.session.None?)
    ensures key.HeadersKey? && r.Value? ==>
              r.value == Object(None, None, Some(SelectRequest(kind, http, graphqlReq).value.headers))
    ensures key.OtherKey? ==> r == Value(Undefined)
  {
    var request := SelectRequest(kind, http, graphqlReq);
    match key
    case NoKey => Value(SpreadWithHeaders(request))
    case SessionKey =>
      if request.None? then TypeError else Value(SessionField(request.value.session, key))
    case UserKey =>
      if request.None? then TypeError else Value(SessionField(request.value.session, key))
    case HeadersKey =>
      if request.None? then TypeError else Value(Object(None, None, Some(request.value.headers)))
    case OtherKey(_) => Value(Undefined)
  }

  /** `Session`: with a key, that property of the attached session object. */
  function SessionParam(key: ParamKey, kind: ContextKind, http: Request, graphqlReq: Option<Request>): (r: ParamResult)
    ensures key.NoKey? ==> r == Value(SpreadWithHeaders(SelectRequest(kind, http, graphqlReq)))
    ensures !key.NoKey? ==> (r.TypeError? <==> SelectRequest(kind, http, graphqlReq).None?)
    // 'headers' is looked up on the session, which has no such property
    ensures (key.HeadersKey? || key.OtherKey?) && r.Value? ==> r.value == Undefined
    ensures (key.SessionKey? || key.UserKey?) && r.Value? ==>
              (r.value.Undefined? <==> SelectRequest(kind, http, graphqlReq).value.session.None?)
  {
    var request := SelectRequest(kind, http, graphqlReq);
    if key.NoKey? then Value(SpreadWithHeaders(request))
    else if request.None? then TypeError
    else Value(SessionField(request.value.session, key))
  }

  /** Property access on a parameter value, as a handler would read it. */
  function Get(v: ParamValue, key: ParamKey): ParamValue
  {
    match v
    case Object(session, user, headers) =>
      (match key
       case SessionKey => if session.Some? then RecordValue(session.value) else Undefined
       case UserKey => if user.Some? then UserValue(user.value) else Undefined
       case HeadersKey => if headers.Some? then HeadersValue(headers.value) else Undefined
       case _ => Undefined)
    case _ => Undefined
  }

  /**
   * The keyed forms agree with the key-less object: 'session' and 'user'
   * return the same property the merged object carries.
   */
  lemma KeyedFormsReadTheMergedObject(key: ParamKey, kind: ContextKind, http: Request, graphqlReq: Option<Request>)
    requires key.SessionKey? || key.UserKey?
    requires SelectRequest(kind, http, graphqlReq).Some?
    ensures CurrentUserSession(key, kind, http, graphqlReq) ==
            Value(Get(CurrentUserSession(NoKey, kind, http, graphqlReq).value, key))
    ensures SessionParam(key, kind, http, graphqlReq) == CurrentUserSession(key, kind, http, graphqlReq)
  {
  }

  /** Without a session, the key-less object holds only the headers: it is the 'headers' result. */
  lemma NoSessionLeavesOnlyHeaders(kind: ContextKind, http: Request, graphqlReq: Option<Request>)
    requires SelectRequest(kind, http, graphqlReq).Some?
    requires SelectRequest(kind, http, graphqlReq).value.session.None?
    ensures CurrentUserSession(NoKey, kind, http, graphqlReq) == CurrentUserSession(HeadersKey, kind, http, graphqlReq)
  {
  }

  /**
   * Where the two decorators differ: on 'headers' when a request exists
   * (`CurrentUserSession` wraps its headers, `Session` reads the session and
   * yields `undefined`), and on an unknown key when the request is missing
   * (`Session` dereferences it and throws, the switch has no default and
   * yields `undefined`). Everywhere else they agree.
   */
  lemma DecoratorsDifferOnHeaders(key: ParamKey, kind: ContextKind, http: Request, graphqlReq: Option<Request>)
    ensures SessionParam(key, kind, http, graphqlReq) == CurrentUserSession(key, kind, http, graphqlReq)
            <==> (key.HeadersKey? ==> SelectRequest(kind, http, graphqlReq).None?)
                 && (key.OtherKey? ==> SelectRequest(kind, http, graphqlReq).Some?)
  {
  }
}

=== FILE: policy.dfy ===
/**
 * The authorization policy the guards implement, stated independently of any
 * of them: public routes pass; without a session an optional route passes and
 * any other is unauthenticated; with a session, a non-empty role requirement
 * must share a name with the user's roles.
 */
module Policy {
  import opened Common
  import opened AuthTypes
  import opened GuardTypes
  import RoleMatch

  datatype Decision = Permit | RejectUnauthenticated | RejectForbidden

  ghost function Decide(meta: RouteMeta, session: Option<UserSession>): Decision
  {
    if meta.isPublic then Permit
    else if session.None? then
      (if meta.isOptional then Permit else RejectUnauthenticated)
    else if RolesRequired(meta)
         && RoleMatch.RoleNames(session.value.user.role) !! (set r | r in meta.roles.value)
    then RejectForbidden
    else Permit
  }

  /** The policy without its role stage, as the two guards without a role check apply it. */
  ghost function DecideIgnoringRoles(meta: RouteMeta, session: Option<UserSession>): Decision
  {
    Decide(meta.(roles := None), session)
  }
}

=== FILE: proxy.dfy ===
/**
 * The catch-all route every module registers: it rebuilds the incoming
 * request as a Fetch request for the authentication library's handler and
 * maps the handler's response (or any failure) onto the reply.
 */
module Proxy {
  import opened Common
  import opened AuthTypes

  /** `Array.prototype.join(',')`. */
  function Join(items: seq<string>): (s: string)
    ensures |items| == 0 ==> s == ""
    ensures |items| == 1 ==> s == items[0]
  {
    if |items| == 0 then ""
    else if |items| == 1 then items[0]
    else items[0] + "," + Join(items[1..])
  }

  /**
   * Joining is appending: one more element adds a ',' and that element at
   * the end, so the items appear in order, separated by single commas.
   */
  lemma {:induction false} JoinAppend(items: seq<string>, last: string)
    requires |items| > 0
    ensures Join(items + [last]) == Join(items) + "," + last
    decreases |items|
  {
    if |items| == 1 {
      assert (items + [last])[1..] == [last];
    } else {
      assert (items + [last])[1..] == items[1..] + [last];
      JoinAppend(items[1..], last);
    }
  }

  /** A two- and a three-element header value. */
  lemma JoinExamples()
    ensures Join(["a", "b"]) == "a,b"
    ensures Join(["en", "fr", "de"]) == "en,fr,de"
  {
    JoinAppend(["a"], "b");
    JoinAppend(["en"], "fr");
    assert ["en", "fr"] + ["de"] == ["en", "fr", "de"];
    JoinAppend(["en", "fr"], "de");
  }

  /** The truthiness test `if (value)` applied to a header value. */
  predicate Truthy(v: HeaderValue)
  {
    match v
    case HeaderText(text) => text != ""
    case HeaderArray(_) => true
    case HeaderUndefined => false
  }

  /** `value.toString()`: a string as is, an array joined with ','. */
  function HeaderString(v: HeaderValue): (s: string)
    requires Truthy(v)
    ensures v.HeaderText? ==> s == v.text && s != ""
    // an empty array is truthy, so it is forwarded, with an empty value
    ensures v.HeaderArray? && |v.items| == 0 ==> s == ""
    // a one-element array is forwarded as the string it holds
    ensures v.HeaderArray? && |v.items| == 1 ==> s == v.items[0]
  {
    match v
    case HeaderText(text) => text
    case HeaderArray(items) => Join(items)
  }

  /**
   * The `(name, value)` pairs appended to the outgoing `Headers`, in the
   * order of the incoming entries: every truthy entry, stringified.
   */
  function Forwarded(headers: Headers): (out: seq<(string, string)>)
    ensures |out| <= |headers|
    ensures (forall i :: 0 <= i < |headers| ==> Truthy(headers[i].1)) ==> |out| == |headers|
    ensures (forall i :: 0 <= i < |headers| ==> !Truthy(headers[i].1)) ==> out == []
  {
    if |headers| == 0 then []
    else
      var last := headers[|headers| - 1];
      Forwarded(headers[..|headers| - 1])
        + (if Truthy(last.1) then [(last.0, HeaderString(last.1))] else [])
  }

  /** The header-copying loop of the route handler. */
  method ForwardHeaders(headers: Headers) returns (out: seq<(string, string)>)
    ensures out == Forwarded(headers)
  {
    out := [];
    var i := 0;
    while i < |headers|
      invariant 0 <= i <= |headers|
      invariant out == Forwarded(headers[..i])
    {
      var (name, value) := headers[i];
      assert headers[..i + 1][..i] == headers[..i];
      if Truthy(value) {
        out := out + [(name, HeaderString(value))];
      }
      i := i + 1;
    }
    assert headers[..i] == headers;
  }

  /**
   * A pair is forwarded exactly when some incoming entry has that name and a
   * truthy value whose string form is that value: nothing falsy goes out and
   * nothing is invented.
   */
  lemma {:induction false} ForwardedMembers(headers: Headers, name: string, value: string)
    ensures (name, value) in Forwarded(headers) <==>
            exists i :: 0 <= i < |headers| && headers[i].0 == name && Truthy(headers[i].1)
                                        && HeaderString(headers[i].1) == value
  {
    if |headers| > 0 {
      var init := headers[..|headers| - 1];
      ForwardedMembers(init, name, value);
      if (name, value) in Forwarded(init) {
        var i :| 0 <= i < |init| && init[i].0 == name && Truthy(init[i].1) && HeaderString(init[i].1) == value;
        assert headers[i] == init[i];
      }
      if exists i :: 0 <= i < |headers| && headers[i].0 == name && Truthy(headers[i].1)
                                    && HeaderString(headers[i].1) == value {
        var i :| 0 <= i < |headers| && headers[i].0 == name && Truthy(headers[i].1)
                                    && HeaderString(headers[i].1) == value;
        if i < |init| {
          assert init[i] == headers[i];
        }
      }
    }
  }

  /**
   * `request.body`: missing (`undefined`/`null`), present but falsy (`''`,
   * `0`, `false`), or truthy together with its `JSON.stringify` text.
   */
  datatype RequestBody = NoBody | FalsyBody | JsonBody(serialized: string)

  /** The incoming Fastify request: HTTP method, the absolute URL built from it, headers, body. */
  datatype IncomingRequest = IncomingRequest(verb: string, url: string, headers: Headers, body: RequestBody)

  datatype FetchRequest = FetchRequest(verb: string, url: string, headers: seq<(string, string)>, body: Option<string>)

  /** `new Request(url, { method, headers, body })`. */
  function BuildRequest(request: IncomingRequest): (f: FetchRequest)
    ensures f.verb == request.verb && f.url == request.url
    ensures f.headers == Forwarded(request.headers)
    // the body is serialized only when it is truthy
    ensures f.body.Some? <==> request.body.JsonBody?
    ensures f.body.Some? ==> f.body.value == request.body.serialized
  {
    FetchRequest(
      request.verb, request.url, Forwarded(request.headers),
      if request.body.JsonBody? then Some(request.body.serialized) else None)
  }

  /** The Fetch `Response` the handler resolves to; `body` is its text when the stream is not null. */
  datatype FetchResponse = FetchResponse(status: int, statusText: string, headers: seq<(string, string)>, body: Option<string>)

  /**
   * How the proxied call ends: something threw before a response existed
   * (URL or request construction, the handler itself), the handler
   * responded, or it responded and reading the body text then failed.
   */
  datatype HandlerOutcome =
    | Threw
    | Responded(response: FetchResponse)
    | BodyReadFailed(failed: FetchResponse)

  datatype ReplyBody =
    | TextBody(text: string)
    | StatusBody(status: int, message: string)
    | FailureBody(error: string, code: string)

  /** What the client receives: status, the headers set on the reply, the payload sent. */
  datatype Reply = Reply(status: int, headers: seq<(string, string)>, body: ReplyBody)

  const InternalServerError: int := 500
  const AuthFailure: ReplyBody := FailureBody("Internal authentication error", "AUTH_FAILURE")

  /** The reply the route sends for a handler outcome. */
  function MapReply(outcome: HandlerOutcome): (r: Reply)
    // success mirrors status and headers
    ensures outcome.Responded? ==>
              r.status == outcome.response.status && r.headers == outcome.response.headers
    ensures outcome.Responded? && outcome.response.body.Some? ==>
              r.body == TextBody(outcome.response.body.value)
    ensures outcome.Responded? && outcome.response.body.None? ==>
              r.body == StatusBody(outcome.response.status, outcome.response.statusText)
    // any failure is a 500 with the fixed body and no detail of the cause
    ensures !outcome.Responded? <==> r.body == AuthFailure
    ensures !outcome.Responded? ==> r.status == InternalServerError
    // headers copied before a body-read failure stay on the failure reply
    ensures outcome.Threw? ==> r.headers == []
    ensures outcome.BodyReadFailed? ==> r.headers == outcome.failed.headers
  {
    match outcome
    case Threw => Reply(InternalServerError, [], AuthFailure)
    case Responded(response) =>
      Reply(response.status, response.headers,
            if response.body.Some? then TextBody(response.body.value)
            else StatusBody(response.status, response.statusText))
    case BodyReadFailed(response) => Reply(InternalServerError, response.headers, AuthFailure)
  }

  /**
   * A failure reply says nothing about its cause: whatever went wrong, the
   * status and the body are the same.
   */
  lemma FailuresIndistinguishable(o1: HandlerOutcome, o2: HandlerOutcome)
    requires !o1.Responded? && !o2.Responded?
    ensures MapReply(o1).status == MapReply(o2).status && MapReply(o1).body == MapReply(o2).body
  {
  }

  /**
   * Two responses give the same reply exactly when they agree on status,
   * headers and body text, and, when there is no body, on the status text.
   */
  lemma RepliesDetermineResponses(a: FetchResponse, b: FetchResponse)
    ensures MapReply(Responded(a)) == MapReply(Responded(b)) <==>
            a.status == b.status && a.headers == b.headers && a.body == b.body
            && (a.body.None? ==> a.statusText == b.statusText)
  {
  }
}

=== FILE: role_guard.dfy ===
/**
 * The role-checking guard (`AuthGuard` of the string-keyed module with
 * Nest exceptions): it looks up and attaches the session first, then reads
 * 'PUBLIC', 'OPTIONAL' and 'ROLES' in that order.
 */
module RoleGuard {
  import opened Common
  import opened AuthTypes
  import opened Context
  import opened Metadata
  import opened GuardTypes
  import opened Policy
  import RoleMatch

  /** `UnauthorizedException({ code: 'UNAUTHORIZED', message: 'Unauthorized' })`. */
  const Unauthorized: GuardError := HttpException(401, "UNAUTHORIZED", Some("Unauthorized"))

  /** `ForbiddenException({ code: 'FORBIDDEN', message: 'Insufficient permissions' })`. */
  const Forbidden: GuardError := HttpException(403, "FORBIDDEN", Some("Insufficient permissions"))

  function CanActivate(kind: ContextKind, meta: RouteMeta, lookup: Lookup): (o: Outcome)
    // the lookup always happens, on the object `getRequestFromContext` selects
    ensures |o.effects| >= 1 && o.effects[0] == LookupSession(RequestFromContext(kind))
    // a rejected lookup propagates before anything is attached or read
    ensures lookup.LookupFailed? ==> o == Outcome(Raise(LookupRejected), [LookupSession(RequestFromContext(kind))])
    // session and user are written before the first metadata read
    ensures lookup.LookupOk? ==>
              && |o.effects| >= 4
              && o.effects[1] == SetSession(RequestFromContext(kind), lookup.session)
              && o.effects[2] == SetUser(RequestFromContext(kind), UserOf(lookup.session))
              && o.effects[3] == ReadMeta(PublicKey)
    // the guard never answers false: it allows or throws
    ensures o.verdict != Deny
    ensures lookup.LookupOk? && meta.isPublic ==> o.verdict == Allow
    ensures lookup.LookupOk? && meta.isOptional && lookup.session.None? ==> o.verdict == Allow
    ensures lookup.LookupOk? && !meta.isPublic && !meta.isOptional && lookup.session.None? ==>
              o.verdict == Raise(Unauthorized)
    ensures lookup.LookupOk? && !meta.isPublic && lookup.session.Some? && !RolesRequired(meta) ==>
              o.verdict == Allow
    // an optional route with a session still goes through the role check
    ensures lookup.LookupOk? && !meta.isPublic && lookup.session.Some? && RolesRequired(meta) ==>
              && (o.verdict == Allow <==> RoleMatch.HasRole(lookup.session.value.user.role, meta.roles.value))
              && (o.verdict != Allow ==> o.verdict == Raise(Forbidden))
              && ReadMeta(RolesKey) in o.effects
  {
    var target := RequestFromContext(kind);
    match lookup
    case LookupFailed => Outcome(Raise(LookupRejected), [LookupSession(target)])
    case LookupOk(session) =>
      var attached := [LookupSession(target), SetSession(target, session), SetUser(target, UserOf(session)), ReadMeta(PublicKey)];
      if meta.isPublic then Outcome(Allow, attached)
      else
        var optionalRead := attached + [ReadMeta(OptionalKey)];
        if meta.isOptional && session.None? then Outcome(Allow, optionalRead)
        else if session.None? then Outcome(Raise(Unauthorized), optionalRead)
        else
          var rolesRead := optionalRead + [ReadMeta(RolesKey)];
          if RolesRequired(meta) && !RoleMatch.HasRole(session.value.user.role, meta.roles.value)
          then Outcome(Raise(Forbidden), rolesRead)
          else Outcome(Allow, rolesRead)
  }

  /** How this guard enforces each policy decision. */
  function Enforce(d: Decision): Verdict
  {
    match d
    case Permit => Allow
    case RejectUnauthenticated => Raise(Unauthorized)
    case RejectForbidden => Raise(Forbidden)
  }

  /**
   * Once the lookup succeeds, the guard's verdict is exactly the policy's
   * decision, in every kind of context.
   */
  lemma FollowsPolicy(kind: ContextKind, meta: RouteMeta, session: Option<UserSession>)
    ensures CanActivate(kind, meta, LookupOk(session)).verdict == Enforce(Decide(meta, session))
  {
  }

  /**
   * The verdict does not depend on the context kind: a WebSocket client is
   * held to the same policy as an HTTP or GraphQL request.
   */
  lemma VerdictIndependentOfContext(k1: ContextKind, k2: ContextKind, meta: RouteMeta, lookup: Lookup)
    ensures CanActivate(k1, meta, lookup).verdict == CanActivate(k2, meta, lookup).verdict
  {
  }
}

=== FILE: role_match.dfy ===
/**
 * The role comparison of the role-checking guard: `Array.prototype.includes`
 * and `Array.prototype.some`, written as the scans they perform, with their
 * meaning as set membership stated in their contracts.
 */
module RoleMatch {
  import opened AuthTypes

  /** `list.includes(x)`: exact, case-sensitive string comparison. */
  function Includes(list: seq<string>, x: string): (found: bool)
    ensures found <==> x in list
  {
    if |list| == 0 then false
    else list[0] == x || Includes(list[1..], x)
  }

  /** `userRoles.some(role => required.includes(role))`. */
  function SomeIncluded(userRoles: seq<string>, required: seq<string>): (found: bool)
    ensures found <==> exists r :: r in userRoles && r in required
  {
    if |userRoles| == 0 then false
    else Includes(required, userRoles[0]) || SomeIncluded(userRoles[1..], required)
  }

  /**
   * The role names a user holds: a single string counts as a one-element
   * set, an array as the set of its elements, anything else as none.
   */
  function RoleNames(role: Role): set<string>
  {
    match role
    case UnsetRole => {}
    case SingleRole(name) => {name}
    case RoleArray(names) => set r | r in names
  }

  /**
   * The guard's `hasRole`: an array role passes when some element is
   * required, a string role when it is itself required, and any other role
   * never. Equivalently, the user's role names meet the required list.
   */
  function HasRole(role: Role, required: seq<string>): (ok: bool)
    ensures ok <==> exists r :: r in RoleNames(role) && r in required
    ensures role.UnsetRole? ==> !ok
  {
    match role
    case RoleArray(names) => SomeIncluded(names, required)
    case SingleRole(name) => Includes(required, name)
    case UnsetRole => false
  }
}

=== FILE: symbol_key_guard.dfy ===
/**
 * The symbol-keyed guard: the same control flow as the `APIError` guard, but
 * it reads IS_PUBLIC_AUTH / IS_OPTIONAL_AUTH and throws a Nest
 * `UnauthorizedException` whose body carries only the code.
 */
module SymbolKeyGuard {
  import opened Common
  import opened AuthTypes
  import opened Context
  import opened Metadata
  import opened GuardTypes
  import ApiErrorGuard

  /** `new UnauthorizedException({ code: 'UNAUTHORIZED' })`: no message. */
  const Unauthorized: GuardError := HttpException(401, "UNAUTHORIZED", None)

  function CanActivate(kind: ContextKind, meta: RouteMeta, lookup: Lookup): (o: Outcome)
    ensures |o.effects| >= 1 && o.effects[0] == ReadMeta(IsPublicAuthKey)
    ensures meta.isPublic ==> o == Outcome(Allow, [ReadMeta(IsPublicAuthKey)])
    ensures !meta.isPublic && kind.Ws? && lookup.LookupFailed? ==>
              o == Outcome(Deny, [ReadMeta(IsPublicAuthKey), LookupSession(SocketClient), Disconnect])
    ensures !meta.isPublic && kind.Ws? && lookup.LookupOk? ==>
              o == Outcome(Allow, [ReadMeta(IsPublicAuthKey), LookupSession(SocketClient), SetSession(SocketClient, lookup.session)])
    ensures o.verdict == Deny ==> kind.Ws? && lookup.LookupFailed?
    ensures !meta.isPublic && !kind.Ws? && lookup.LookupFailed? ==>
              o == Outcome(Raise(LookupRejected), [ReadMeta(IsPublicAuthKey), LookupSession(HttpOrGraphQLRequest(kind))])
    ensures !meta.isPublic && !kind.Ws? && lookup.LookupOk? ==>
              && |o.effects| == 5
              && o.effects[1] == LookupSession(HttpOrGraphQLRequest(kind))
              && o.effects[2] == SetSession(HttpOrGraphQLRequest(kind), lookup.session)
              && o.effects[3] == SetUser(HttpOrGraphQLRequest(kind), UserOf(lookup.session))
              && o.effects[4] == ReadMeta(IsOptionalAuthKey)
    ensures !meta.isPublic && !kind.Ws? && lookup.LookupOk? && meta.isOptional && lookup.session.None? ==>
              o.verdict == Allow
    ensures !meta.isPublic && !kind.Ws? && lookup.LookupOk? && !meta.isOptional && lookup.session.None? ==>
              o.verdict == Raise(Unauthorized)
    ensures lookup.LookupOk? && lookup.session.Some? ==> o.verdict == Allow
  {
    var read := [ReadMeta(IsPublicAuthKey)];
    if meta.isPublic then Outcome(Allow, read)
    else if kind.Ws? then
      match lookup
      case LookupFailed => Outcome(Deny, read + [LookupSession(SocketClient), Disconnect])
      case LookupOk(session) => Outcome(Allow, read + [LookupSession(SocketClient), SetSession(SocketClient, session)])
    else
      var target := HttpOrGraphQLRequest(kind);
      match lookup
      case LookupFailed => Outcome(Raise(LookupRejected), read + [LookupSession(target)])
      case LookupOk(session) =>
        var attached := read + [LookupSession(target), SetSession(target, session), SetUser(target, UserOf(session)), ReadMeta(IsOptionalAuthKey)];
        if meta.isOptional && session.None? then Outcome(Allow, attached)
        else if session.None? then Outcome(Raise(Unauthorized), attached)
        else Outcome(Allow, attached)
  }

  /** The string key of the `APIError` guard that each symbol key stands in for. */
  function RenameKey(k: MetaKey): MetaKey
  {
    if k == PublicKey then IsPublicAuthKey
    else if k == OptionalKey then IsOptionalAuthKey
    else k
  }

  function RenameEffect(e: Effect): Effect
  {
    match e
    case ReadMeta(k) => ReadMeta(RenameKey(k))
    case _ => e
  }

  /**
   * Every step, with its metadata key renamed: reads of 'PUBLIC' and
   * 'OPTIONAL' become reads of the symbol keys, and every other step, other
   * metadata reads included, is kept as it is, in the same position.
   */
  function RenameEffects(es: seq<Effect>): (r: seq<Effect>)
    ensures |r| == |es|
    ensures forall i :: 0 <= i < |es| && es[i] == ReadMeta(PublicKey) ==> r[i] == ReadMeta(IsPublicAuthKey)
    ensures forall i :: 0 <= i < |es| && es[i] == ReadMeta(OptionalKey) ==> r[i] == ReadMeta(IsOptionalAuthKey)
    ensures forall i :: 0 <= i < |es| && es[i] != ReadMeta(PublicKey) && es[i] != ReadMeta(OptionalKey) ==> r[i] == es[i]
  {
    seq(|es|, i requires 0 <= i < |es| => RenameEffect(es[i]))
  }

  /** The thrown error this guard uses where the `APIError` guard throws one. */
  function RenameVerdict(v: Verdict): Verdict
  {
    if v == Raise(ApiErrorGuard.Unauthorized) then Raise(Unauthorized) else v
  }

  /**
   * The two guards without a role check behave identically up to their keys
   * and their 401 error: the same steps in the same order, the same
   * allow/deny answers, and one 401 where the other throws its own.
   */
  lemma MirrorsApiErrorGuard(kind: ContextKind, meta: RouteMeta, lookup: Lookup)
    ensures CanActivate(kind, meta, lookup).effects == RenameEffects(ApiErrorGuard.CanActivate(kind, meta, lookup).effects)
    ensures CanActivate(kind, meta, lookup).verdict == RenameVerdict(ApiErrorGuard.CanActivate(kind, meta, lookup).verdict)
  {
  }
}
